=== FILE: README.md ===
# command_terminal in Dafny

A model of the core of `app.py`, a browser pseudo-terminal. The server takes a
line of text and translates natural-language phrases ("create a new folder
notes", "list files of /tmp") into shell commands. It then answers the
built-in commands `clear`, `history`, `help` and `cd` itself, maps a few
commands for Windows, and runs everything else in a child shell in the tracked
working directory. A blank command is refused before anything is logged.
`/suggest` offers the catalogue commands that start with what has been typed.

Modules, one file each:

- `Options` (`options.dfy`): an `Option` type that supports `:-`.
- `Text` (`text.dfy`): the Python string operations the code relies on.
  - `str.strip()` and `str.lower()`, with the whitespace set shared by
    `strip()` and the regular expression class `\s`.
  - Prefix tests, `replace(x, y, 1)`, `"\n".join`, and decimal rendering of
    numbers.
- `Patterns` (`patterns.dfy`): the regular-expression pieces the translator
  uses.
  - `\s+`, literal words, alternations and optional words.
  - The greedy runs `\w+` and `.+`.
  - `re.search` as "the leftmost position where the anchored pattern
    matches".
  - `Cascade`, the first-match-wins chain that both the translator and the
    Windows table use.
- `Translator` (`translator.dfy`): `parse_natural_language` as a table of
  eleven rules tried in source order over `command.lower().strip()`.
- `TranslatorExamples` (`translator_examples.dfy`): concrete translations,
  proved for every name or path of the stated shape.
- `Executor` (`executor.dfy`): `execute_command` as a pure step
  `Session -> StepResult`.
  - The global working directory and history become a `Session` value.
  - The clock becomes a timestamp parameter.
  - The file system, `os.name` and the child process become a `Host` value.
- `Routes` (`routes.dfy`): the `/execute` guard, a run of many requests, and
  `/suggest`.

How the regular expressions are modelled exactly, without a general engine:

- `\s+` takes the whole whitespace run. Where a literal word or `\w+`
  follows, that is the only split that can match, because those begin with a
  non-space character. Two places differ:
  - In `\s+of\s+(.+)` the `.+` may start on whitespace. `BackOff` models
    that backtracking step by step.
  - In the file rules, `\s+(.*?)` is followed only by parts that can match
    empty. Only whether `\s+` matches at all decides the match, and
    `VerbSpaceAt` reports just that.
- Each alternation's alternatives differ in their first letter, or come last
  in the pattern. Committing to the first alternative that matches therefore
  loses no matches. `(?:user|username)` is the one group whose alternatives
  start alike; it ends its pattern, and `username` can only match where `user`
  already does.
- The lazy `(.*?)` of the file rules therefore always matches empty. Those
  rules yield exactly `echo '' > `, `cat ` or `rm ` whenever one of their
  verbs is followed by whitespace.

Behaviour of the code that a reader might not expect:

- When no rule matches, `parse_natural_language` returns the command as it was
  given, not lower-cased and not stripped (`app.py:81`).
- "show directory contents of /tmp" translates to a bare `ls`, not `ls /tmp`.
  The optional `of` part can only follow the first noun, and here "contents"
  stands between (`TranslatorExamples.DirectoryContentsExample`).
- The file rules drop the file name: "delete notes" becomes `rm `, not
  `rm notes` (`TranslatorExamples.DeleteExample`).

## Model

| member | source | states |
|---|---|---|
| Text.Strip | app.py:25 | `strip()` removes only whitespace, and only from the two ends. What remains is a contiguous slice of the input whose first and last characters are not whitespace. |
| Text.StripEmptyIffBlank | app.py:186-188 | Stripping gives the empty string exactly when every character of the input is whitespace. |
| Text.ReplaceFirstAtPrefix | app.py:142 | `replace(x, y, 1)` on a string that starts with `x` swaps that leading `x` for `y` and keeps the rest. |
| Text.JoinEnds | app.py:104 | A `"\n".join` of one or more lines begins with the first line and ends with the last. |
| Text.JoinSnoc | app.py:104 | Joining one more line with `"\n"` extends the joined text by the separator and that line. |
| Text.DecimalRoundTrip | app.py:104 | The decimal text of a history number reads back as that number. |
| Text.DigitRunOf | app.py:104 | A rendered number followed by a non-digit is read back as exactly that run of digits. |
| Patterns.Spaces | app.py:28 | `\s+` matches exactly when the text starts with whitespace. It consumes the whole run: everything it skips is whitespace, and what is left does not start with whitespace. |
| Patterns.WordRun | app.py:28 | `\w+` takes the longest run of word characters. |
| Patterns.LineRun | app.py:34 | `.+` takes the longest run of characters other than newline. |
| Patterns.PhraseAtSpec | app.py:56 | A phrase of words separated by `\s+`, such as `running\s+tasks`, matches exactly where its words stand in order with whitespace between, and leaves what follows. |
| Patterns.ChoiceAtSpec | app.py:40 | An alternation whose alternatives begin differently matches exactly where one of its alternatives is spelled, and leaves what follows that alternative. |
| Patterns.WordChoiceSpec | app.py:28 | An alternation of distinct single words matches exactly where one of the words begins the text, and leaves what follows it. |
| Patterns.ChoicesAtSpec | app.py:40 | Alternations separated by `\s+` match exactly where they are spelled in order with whitespace between. |
| Patterns.Search | app.py:29 | `re.search` succeeds exactly when the anchored pattern matches at some position. It returns the match at the leftmost such position. |
| Patterns.SearchSkip | app.py:29 | A search that fails at the first position is the search of the rest of the text. |
| Patterns.SearchHere | app.py:29 | A search that matches at the first position returns that match. |
| Patterns.Cascade | app.py:28-81 | The chain of `if match: return` yields nothing exactly when no rule fires. Otherwise it yields the output of the first rule that fires. |
| Patterns.CascadeAt | app.py:28-81 | When every rule before position `k` is silent and rule `k` fires, the chain yields rule `k`'s output. |
| Translator.MakeDirAt | app.py:28 | A folder-rule match captures a non-empty name made of word characters taken from the text. The text must contain whitespace. |
| Translator.MakeDirAtSpec | app.py:28 | The folder pattern matches at a position only where a create verb stands followed by whitespace, then the optional `a` and `new`, then a folder noun followed by whitespace. Wherever they do stand, the captured name is the run of word characters after the noun's whitespace, and there is no match when that run is empty. |
| Translator.FolderName | app.py:28 | The folder noun followed by `\s+(\w+)` yields the word run after a noun that stands followed by whitespace, and yields a name only where such a noun stands. |
| Translator.ListAt | app.py:34 | A match of the listing pattern needs whitespace in the text. |
| Translator.ListAtSpec | app.py:34 | The listing pattern matches at a position exactly when a listing verb, whitespace and a listing noun stand there. Its `of` group is then what `OfPath` reads right after the noun. |
| Translator.OfPath | app.py:34 | The optional `\s+of\s+(.+)` is present exactly when whitespace, `of`, and then within the following whitespace run a start whose character is not a newline stand after the noun. The group is the rest of that line from the last such start: non-empty and free of newlines. |
| Translator.BackOff | app.py:34 | `\s+(.+)` giving back whitespace: it succeeds exactly when one of the first `k` starts has a non-newline character, and captures the rest of the line from the last such start. |
| Translator.VerbSpaceAt | app.py:64-79 | With distinct one-word verbs, a file-rule pattern matches at a position exactly when one of its verbs stands there followed by whitespace. |
| Translator.KeywordsAt | app.py:40-61 | With distinct heads in every group, a keyword pattern matches at a position exactly when its alternations are spelled there, separated by whitespace. |
| Translator.Translate | app.py:21-81 | The translation is either the command exactly as given or the output of one of the eleven rules on the lower-cased, stripped command. |
| Translator.RulesWellFormed | app.py:28-79 | Every rule except the `whoami` rule has the shape the matchers assume: single-word verbs with distinct first letters, and groups whose alternatives begin differently. |
| Translator.ShadowedAlternative | app.py:52 | An alternative that extends an earlier one, as `username` extends `user`, never changes what the alternation matches. |
| Translator.UserCoversUsername | app.py:52-53 | The `whoami` rule fires exactly as the same rule with `user` as its only alternative. |
| Translator.TranslateFirstMatch | app.py:25-81 | The translation is the output of the first rule that fires on the lower-cased, stripped input. When none fires, it is the input exactly as given. |
| Translator.TranslateAfterSilence | app.py:25-81 | When every rule before rule `k` is silent on the normalized input and rule `k` fires, the translation is rule `k`'s output. |
| Translator.FireNeedsSpace | app.py:28-79 | No rule fires on text without whitespace. |
| Translator.SingleWordPassesThrough | app.py:81 | A command without whitespace, such as `ls`, `history` or `CLEAR`, comes back unchanged, case included. |
| Translator.NormalizeHasNoUpper | app.py:25 | The text the rules look at contains no upper-case letter. |
| Translator.FireNeedsLeadVerb | app.py:28-79 | A rule fires only where one of its leading verbs stands followed by whitespace. |
| Translator.MakeDirName | app.py:29-31 | When the folder rule fires, it uses the leftmost position where the folder pattern matches: `mkdir ` and the name captured there, a non-empty run of word characters from the text. |
| Translator.MakeDirNameIsLowerCase | app.py:25-31 | Whenever the folder rule fires, the translation is `mkdir ` followed by word characters, none of them upper-case. |
| Translator.KeywordFires | app.py:40-61 | A keyword rule yields its command exactly when its alternations are spelled at some position of the text. Otherwise it yields nothing. |
| Translator.VerbFileFires | app.py:64-79 | A file rule yields its bare command, with an empty file name, exactly when one of its verbs is followed by whitespace somewhere in the text. Otherwise it yields nothing. |
| TranslatorExamples.FolderExample | app.py:25-31 | "create a new folder NAME", with any of the verbs `create`, `make`, `build` and either noun `folder` or `directory`, becomes "mkdir NAME" for every lower-case word NAME. |
| TranslatorExamples.ListFilesExample | app.py:25-37 | "list files of PATH" becomes "ls PATH" for every lower-case PATH without whitespace. |
| TranslatorExamples.DirectoryContentsExample | app.py:25-37 | "show directory contents of PATH" becomes a bare "ls". |
| TranslatorExamples.CurrentDirectoryExample | app.py:25-41 | "show current directory" and "display current directory" become "pwd". |
| TranslatorExamples.SystemInfoExample | app.py:25-45 | "show system info" and "display system info" become "uname". |
| TranslatorExamples.TimeExample | app.py:25-49 | "show time" and "display time" become "date". |
| TranslatorExamples.UserExample | app.py:25-53 | "show user" and "display user" become "whoami". |
| TranslatorExamples.RunningTasksExample | app.py:25-57 | "show running tasks" and "display running tasks" become "ps", through the two-word alternative. |
| TranslatorExamples.DiskSpaceExample | app.py:25-61 | "show disk space" and "display disk space" become "df". |
| TranslatorExamples.CreateFileExample | app.py:25-67 | "create NAME" becomes "echo '' > " with the name dropped, for every lower-case NAME without whitespace. The folder rule, which shares the verb `create`, stays silent when no folder noun follows. |
| TranslatorExamples.ViewFileExample | app.py:25-73 | "view NAME" becomes "cat " with the name dropped, for every lower-case NAME without whitespace. |
| TranslatorExamples.ShowFileExample | app.py:25-73 | "show NAME" and "display NAME" become "cat " when NAME is lower case, has no whitespace, and starts with none of the letters `c d f i o p r s t u w`. The listing and keyword rules that share the verb stay silent. A name that does start a noun or keyword ("show timeline") is taken by those rules instead. |
| TranslatorExamples.DeleteExample | app.py:25-79 | "delete NAME" becomes "rm " with the name dropped, for every lower-case NAME without whitespace. |
| Executor.Execute | app.py:90-137 | Every command is logged as one record of the untranslated command, appended after the existing history. The working directory changes only on a successful `cd`, only to a directory, and the reply then names it. |
| Executor.Dispatch | app.py:100-154 | `clear`, `history` and `help` are recognised only as the whole translated command. A `cd` request is recognised exactly when the command starts with `cd `, and its target is the rest with surrounding whitespace removed. Anything else goes to the shell, mapped for the platform. |
| Executor.Apply | app.py:141-154 | A row of the Windows table rewrites exactly the commands that start with its prefix. |
| Executor.Substitute | app.py:140-154 | The first row whose prefix the command starts with rewrites it. A command that no row matches is kept. |
| Executor.ForPlatform | app.py:140-154 | Off Windows the command is run as translated. On Windows the first matching row of the table rewrites it, and a command no row matches is kept. |
| Executor.RenderHistory | app.py:104 | The rendered history is empty exactly when the history is. Otherwise it opens with entry 1 and closes with the latest entry. |
| Executor.Assemble | app.py:157-175 | The output of a finished run is stdout followed by stderr. A timeout gives "Command timed out" and an exception gives "Error executing command: " and its message. The reply is an error exactly when the run did not exit with code 0. |
| Executor.ClearReply | app.py:100-101 | `clear` logs itself, answers with empty output and no error, and keeps the directory. |
| Executor.HelpReply | app.py:107-127 | `help` logs itself and answers with the fixed help text. |
| Executor.HistoryReply | app.py:90-105 | `history` answers with every logged command, numbered from 1, itself included as the last line. |
| Executor.RenderHistoryExtends | app.py:104 | Logging one more command adds exactly one line, with the next number, at the end of the rendered history. |
| Executor.HistoryLineRoundTrip | app.py:104 | A history line `N: COMMAND` reads back as its number and its command. |
| Executor.DispatchChangeDir | app.py:130-131 | A translated command `cd T` asks to change to `T` with surrounding whitespace removed. |
| Executor.ChangeDirectory | app.py:130-137 | `cd T` moves to the resolved path exactly when that path is a directory, and reports it. Otherwise the directory is kept and the reply is the error "No such directory: T". |
| Executor.Respond | app.py:100-175 | After logging, the history is left as logged. The working directory moves only when the translated command starts with `cd ` and the path resolved from the stripped target is a directory, and it moves to that path, which the reply names. A command that is neither a built-in nor `cd ` is run through the shell in its platform spelling and the session's directory, and the reply is that run's assembled answer. |
| Executor.ShellReply | app.py:138-175 | When the translation is not `clear`, `history`, `help` or a `cd ` command, the step logs the command, keeps the directory, and answers with the shell run of the platform spelling in that directory: stdout then stderr, "Command timed out", or "Error executing command: …". |
| Executor.RespondErrorIff | app.py:128-175 | For an already-translated command, the reply is an error exactly when a `cd` target is not a directory or the shell run did not exit with code 0. |
| Executor.ErrorIff | app.py:100-175 | A reply is an error exactly when a `cd` target is not a directory or a shell run did not exit with code 0. |
| Executor.WindowsFirstPrefix | app.py:140-154 | On Windows, the first row of the table whose prefix the command starts with decides the command that is run. |
| Executor.WindowsUnlisted | app.py:140-154 | A command that starts with none of the table's prefixes runs unchanged, on either platform. |
| Executor.WindowsList | app.py:141-142 | On Windows, any command starting `ls` has that `ls` replaced by `dir`, with the rest kept. |
| Executor.WindowsRemove | app.py:145-146 | On Windows, `rm ARGS` becomes `del ARGS`. |
| Executor.WindowsRmNeedsSpace | app.py:140-154 | On Windows, `rm` followed by nothing or by anything other than a space, such as `rmdir x`, runs unchanged, because the row's prefix is `rm ` with its space. |
| Executor.WindowsShowFile | app.py:147-148 | On Windows, `cat ARGS` becomes `type ARGS`. |
| Executor.WindowsCatNeedsSpace | app.py:140-154 | On Windows, `cat` followed by nothing or by anything other than a space, such as `category`, runs unchanged, because the row's prefix is `cat ` with its space. |
| Executor.WindowsProcesses | app.py:153-154 | On Windows, any command starting `ps` becomes `tasklist`, and its arguments are dropped. |
| Executor.WindowsWorkingDir | app.py:143-144 | On Windows, any command starting `pwd` becomes `cd`. |
| Executor.WindowsSystem | app.py:149-150 | On Windows, any command starting `uname` becomes `ver`. |
| Executor.WindowsDisk | app.py:151-152 | On Windows, any command starting `df` becomes the fixed `wmic logicaldisk` disk query. |
| Executor.OtherPlatformsUnchanged | app.py:140 | On any platform other than Windows, every command runs exactly as translated. |
| Routes.HandleExecute | app.py:183-191 | A blank command is answered "No command provided" as an error and leaves the session untouched. Any other command runs stripped and adds exactly one record to the history. |
| Routes.RunCollects | app.py:90-94 | A step that appends one request's records to the history, over any sequence of requests, appends all of their records in arrival order. |
| Routes.ServeLogs | app.py:183-191 | Over any sequence of requests, the history only grows. It gains exactly the non-blank commands, stripped, in arrival order. |
| Routes.Filter | app.py:203 | An entry is suggested if and only if it is in the catalogue and starts with the typed prefix. |
| Routes.FilterAppend | app.py:203 | Filtering keeps catalogue order: it distributes over concatenation. |
| Routes.FilterNarrows | app.py:202-203 | Typing a longer prefix keeps exactly the earlier suggestions that also start with the longer prefix. |
| Routes.Suggest | app.py:199-204 | The suggestions are the catalogue entries that start with the stripped, lower-cased input. |
| Routes.SuggestBlank | app.py:202-203 | Blank input offers the whole catalogue, in order. |
| Routes.CatalogH | app.py:16-19 | The catalogue entries starting with `h` are `help` and `history`, in that order. |
| Routes.SuggestH | app.py:199-204 | Typing `h` offers `help` and then `history`. |

## Left out

- Flask: routing, `request.json`, `jsonify`, `render_template`, the `/` page and
  the development server are not modelled. A request's `command` or `input`
  field arrives as a string, with "" for a missing field.
- Fields that are not strings: `.strip()` would raise on them in the request
  handler. The model has only string fields.
- The `/history` route returns the history list unchanged. In the model that is
  the `history` field of the session, so it has no member of its own.
- `subprocess.run`: the child process, the shell, the 30-second timeout and the
  text decoding are the `Host.run` parameter. It reports an `Outcome`: exited
  with its captured text and exit code, timed out, or raised an exception with
  its message.
- `datetime.now().isoformat()`: the timestamp is an opaque string parameter.
- `os.path.abspath`, `os.path.join` and `os.path.isdir`: these are the
  `Host.resolve` and `Host.isDir` parameters, because the file system is not
  modelled. `os.name == 'nt'` is `Host.isWindows`.
- Exceptions: only those from running the child process are modelled, as
  `Raised`. The special commands and the `cd` branch are taken never to raise.
- Module-level mutable state and concurrent requests: the session is a value
  passed from one request to the next, so requests are served one at a time.
- Unicode: `\w` and `str.lower()` are modelled on ASCII letters, digits and `_`
  only. Python applies them to all of Unicode. Whitespace uses Python's full
  list of whitespace characters.
- A general regular-expression engine: only the eleven patterns of the
  translator are modelled.
- Translator.Translate: its own contract says only that the result is the
  input or some rule's output. The first-match order is stated by
  `TranslateFirstMatch` and `TranslateAfterSilence`, and what each rule
  matches by `MakeDirAtSpec`, `ListAtSpec`, `KeywordFires` and
  `VerbFileFires`.
- Translator.MakeDirAt: its own contract states only the shape of the captured
  name. When it matches and what it captures are stated by `MakeDirAtSpec`.
- Translator.ListAt: its own contract states only that a match needs
  whitespace. When it matches and what it captures are stated by
  `ListAtSpec` and `OfPath`.
- Translator.RulesWellFormed: excludes the `whoami` rule, whose alternatives
  `user` and `username` start alike. `UserCoversUsername` shows that rule
  fires exactly as its well-formed one-alternative form.

=== FILE: executor.dfy ===
/**
 * One step of the terminal session, `execute_command`: log the command,
 * translate it, then answer `clear`, `history` and `help` directly, change
 * directory for `cd <target>`, or run it as a shell command.
 *
 * The session is a value threaded from step to step. The file system, the
 * clock and the child process are parameters: `Host` holds what the step
 * asks of the machine, and the timestamp is passed in.
 */
module Executor {
  import opened Options
  import opened Text
  import opened Patterns
  import Translator

  /** One entry of the command history. */
  datatype Record = Record(command: string, timestamp: string)

  /** The working directory and the history, shared by every request. */
  datatype Session = Session(cwd: string, history: seq<Record>)

  /** The JSON answer `{output, error}`. */
  datatype Reply = Reply(output: string, error: bool)

  /** A session after one request, with the answer to that request. */
  datatype StepResult = StepResult(session: Session, reply: Reply)

  /** How a shell run ends: exit with captured text, the 30-second timeout, or an exception. */
  datatype Outcome =
    | Exited(stdout: string, stderr: string, code: int)
    | TimedOut
    | Raised(message: string)

  /** What a step asks of the machine it runs on. */
  datatype Host = Host(
    isWindows: bool,                      // os.name == 'nt'
    resolve: (string, string) -> string,  // abspath(join(cwd, target))
    isDir: string -> bool,                // os.path.isdir
    run: (string, string) -> Outcome)     // run(command, cwd) through the shell

  // Windows command substitution

  /**
   * A row of the Windows table: commands starting with `prefix` either get
   * their first `name` replaced (arguments kept) or become `replacement`.
   */
  datatype Substitution =
    | Rename(prefix: string, name: string, replacement: string)
    | Replace(prefix: string, replacement: string)

  /** The substitutions, in the order they are tried. */
  const WindowsTable: seq<Substitution> := [
    Rename("ls", "ls", "dir"),
    Replace("pwd", "cd"),
    Rename("rm ", "rm", "del"),
    Rename("cat ", "cat", "type"),
    Replace("uname", "ver"),
    Replace("df", "wmic logicaldisk get size,freespace,caption"),
    Replace("ps", "tasklist")
  ]

  /** A row rewrites exactly the commands starting with its prefix. */
  function Apply(sub: Substitution, command: string): (r: Option<string>)
    ensures r.Some? <==> StartsWith(command, sub.prefix)
  {
    if !StartsWith(command, sub.prefix) then None
    else match sub
      case Rename(_, name, replacement) => Some(ReplaceFirst(command, name, replacement))
      case Replace(_, replacement) => Some(replacement)
  }

  /** The first row of `table` whose prefix `command` starts with rewrites it; with none it is kept. */
  function Substitute(table: seq<Substitution>, command: string): (r: string)
    ensures (forall j :: 0 <= j < |table| ==> !StartsWith(command, table[j].prefix)) ==> r == command
    ensures forall j :: 0 <= j < |table| && StartsWith(command, table[j].prefix)
                        && (forall i :: 0 <= i < j ==> !StartsWith(command, table[i].prefix))
                        ==> Some(r) == Apply(table[j], command)
  {
    var fire := sub => Apply(sub, command);
    assert forall j :: 0 <= j < |table| ==> (fire(table[j]).Some? <==> StartsWith(command, table[j].prefix));
    match Cascade(table, fire)
    case Some(c) => c
    case None => command
  }

  /**
   * The command the shell is given on this platform: off Windows the command
   * itself; on Windows the first row of the table whose prefix the command
   * starts with rewrites it, and a command no row matches is kept.
   */
  function ForPlatform(command: string, isWindows: bool): (r: string)
    ensures !isWindows ==> r == command
    ensures isWindows && (forall j :: 0 <= j < |WindowsTable| ==> !StartsWith(command, WindowsTable[j].prefix))
            ==> r == command
    ensures forall j :: isWindows && 0 <= j < |WindowsTable| && StartsWith(command, WindowsTable[j].prefix)
                        && (forall i :: 0 <= i < j ==> !StartsWith(command, WindowsTable[i].prefix))
                        ==> Some(r) == Apply(WindowsTable[j], command)
  {
    if !isWindows then command else Substitute(WindowsTable, command)
  }

  // Dispatch

  /** What a translated command asks for, in the order `execute_command` checks. */
  datatype Action =
    | Clear
    | ShowHistory
    | Help
    | ChangeDir(target: string)
    | Shell(command: string)

  /**
   * The three built-ins are recognised only as the whole command; `cd `
   * must be followed by the target; everything else goes to the shell.
   */
  function Dispatch(interpreted: string, isWindows: bool): (a: Action)
    ensures a.Clear? <==> interpreted == "clear"
    ensures a.ShowHistory? <==> interpreted == "history"
    ensures a.Help? <==> interpreted == "help"
    ensures a.ChangeDir? <==> StartsWith(interpreted, "cd ")
    ensures a.ChangeDir? ==> a.target == Strip(interpreted[3..])
    ensures a.Shell? ==> a.command == ForPlatform(interpreted, isWindows)
  {
    DiffersAt("clear", "cd ", 1);
    DiffersAt("history", "cd ", 0);
    DiffersAt("help", "cd ", 0);
    if interpreted == "clear" then Clear
    else if interpreted == "history" then ShowHistory
    else if interpreted == "help" then Help
    else if StartsWith(interpreted, "cd ") then ChangeDir(Strip(interpreted[3..]))
    else Shell(ForPlatform(interpreted, isWindows))
  }

  const HelpText: string :=
    "Available commands:\n"
    + "  help        - Show this help message\n"
    + "  clear       - Clear the terminal\n"
    + "  history     - Show command history\n"
    + "  ls          - List directory contents\n"
    + "  pwd         - Show current directory\n"
    + "  cd <dir>    - Change directory\n"
    + "  mkdir <dir> - Create directory\n"
    + "  rm <file>   - Remove file\n"
    + "  cat <file>  - Display file contents\n"
    + "  whoami      - Show current user\n"
    + "  date        - Show date/time\n"
    + "  ps          - Show running processes\n"
    + "  df          - Show disk space\n"
    + "  uname       - Show system info\n"
    + "  echo <txt>  - Display text\n"
    + "  exit        - Exit terminal"

  // History rendering

  function HistoryLine(index: nat, r: Record): string {
    Decimal(index) + ": " + r.command
  }

  /** The history as numbered lines, counting from 1 in arrival order. */
  function HistoryLines(h: seq<Record>): (lines: seq<string>)
    ensures |lines| == |h|
    ensures forall i :: 0 <= i < |h| ==> lines[i] == HistoryLine(i + 1, h[i])
  {
    seq(|h|, i requires 0 <= i < |h| => HistoryLine(i + 1, h[i]))
  }

  /**
   * The `history` answer: the numbered lines joined by newlines; empty only
   * for an empty history, opening with entry 1 and closing with the latest.
   */
  function RenderHistory(h: seq<Record>): (r: string)
    ensures r == "" <==> |h| == 0
    ensures |h| > 0 ==> StartsWith(r, HistoryLine(1, h[0])) && IsSuffix(HistoryLine(|h|, h[|h| - 1]), r)
  {
    var lines := HistoryLines(h);
    if |h| == 0 then ""
    else
      JoinEnds(lines, "\n");
      Join(lines, "\n")
  }

  // Result assembly

  /** The answer for a shell run. */
  function Assemble(o: Outcome): (r: Reply)
    ensures r.error <==> !(o.Exited? && o.code == 0)
    ensures o.Exited? ==> r.output == o.stdout + o.stderr
    ensures o.TimedOut? ==> r.output == "Command timed out"
    ensures o.Raised? ==> r.output == "Error executing command: " + o.message
  {
    match o
    case Exited(stdout, stderr, code) =>
      var output := if stderr != "" then stdout + stderr else stdout;
      Reply(output, code != 0)
    case TimedOut => Reply("Command timed out", true)
    case Raised(message) => Reply("Error executing command: " + message, true)
  }

  // The step

  /**
   * `execute_command`: the command is logged as given before anything else;
   * only a successful `cd` moves the working directory, and only to a
   * directory.
   */
  function Execute(s: Session, command: string, timestamp: string, host: Host): (r: StepResult)
    ensures r.session.history == s.history + [Record(command, timestamp)]
    ensures r.session.cwd == s.cwd
            || (StartsWith(Translator.Translate(command), "cd ") && host.isDir(r.session.cwd)
                && r.reply == Reply("Changed directory to: " + r.session.cwd, false))
  {
    Respond(s.(history := s.history + [Record(command, timestamp)]), Translator.Translate(command), host)
  }

  /**
   * The part of `execute_command` after logging and translation: what the
   * interpreted command does to the (already logged) session.
   */
  function Respond(logged: Session, interpreted: string, host: Host): (r: StepResult)
    ensures r.session.history == logged.history
    ensures r.session.cwd == logged.cwd
            || (StartsWith(interpreted, "cd ") && host.isDir(r.session.cwd)
                && r.reply == Reply("Changed directory to: " + r.session.cwd, false))
    ensures r.session.cwd != logged.cwd
            ==> r.session.cwd == host.resolve(logged.cwd, Strip(interpreted[3..]))
    ensures !StartsWith(interpreted, "cd ") && interpreted !in {"clear", "history", "help"}
            ==> r == StepResult(logged, Assemble(host.run(ForPlatform(interpreted, host.isWindows), logged.cwd)))
  {
    match Dispatch(interpreted, host.isWindows)
    case Clear => StepResult(logged, Reply("", false))
    case ShowHistory => StepResult(logged, Reply(RenderHistory(logged.history), false))
    case Help => StepResult(logged, Reply(HelpText, false))
    case ChangeDir(target) =>
      var path := host.resolve(logged.cwd, target);
      if host.isDir(path) then
        StepResult(logged.(cwd := path), Reply("Changed directory to: " + path, false))
      else
        StepResult(logged, Reply("No such directory: " + target, true))
    case Shell(line) => StepResult(logged, Assemble(host.run(line, logged.cwd)))
  }

  // Windows table properties

  /** The first row whose prefix the command starts with decides the Windows command. */
  lemma WindowsFirstPrefix(command: string, k: nat)
    requires k < |WindowsTable| && StartsWith(command, WindowsTable[k].prefix)
    requires forall j :: 0 <= j < k ==> !StartsWith(command, WindowsTable[j].prefix)
    ensures ForPlatform(command, true) == Apply(WindowsTable[k], command).value
  {
  }

  /** A command no row's prefix matches is run as it is, on either platform. */
  lemma WindowsUnlisted(command: string, isWindows: bool)
    requires forall j :: 0 <= j < |WindowsTable| ==> !StartsWith(command, WindowsTable[j].prefix)
    ensures ForPlatform(command, isWindows) == command
  {
  }

  /** `rm <args>` is decided by the `rm ` row. */
  lemma RemoveRowDecides(args: string)
    ensures ForPlatform("rm " + args, true) == Apply(WindowsTable[2], "rm " + args).value
  {
    var c := "rm " + args;
    assert c[0] == 'r' && c[1] == 'm' && c[2] == ' ';
    DiffersAt(c, WindowsTable[0].prefix, 0);
    DiffersAt(c, WindowsTable[1].prefix, 0);
    assert c[..3] == "rm ";
    WindowsFirstPrefix(c, 2);
  }

  /** The `rm ` row renames `rm` to `del` and keeps the arguments. */
  lemma RemoveRowRenames(args: string)
    ensures Apply(WindowsTable[2], "rm " + args).value == "del " + args
  {
    var c := "rm " + args;
    assert c[..3] == "rm ";
    ReplaceFirstAtPrefix(c, "rm", "del");
    assert c[2..] == " " + args;
  }

  /** `rm <args>` becomes `del <args>`. */
  lemma WindowsRemove(args: string)
    ensures ForPlatform("rm " + args, true) == "del " + args
  {
    RemoveRowDecides(args);
    RemoveRowRenames(args);
  }

  /**
   * The `rm ` row needs the space: a bare `rm`, or `rm` followed by anything
   * but a space (`rmdir x`), runs unchanged on Windows.
   */
  lemma WindowsRmNeedsSpace(rest: string)
    requires rest == [] || rest[0] != ' '
    ensures ForPlatform("rm" + rest, true) == "rm" + rest
  {
    var c := "rm" + rest;
    assert c[0] == 'r' && c[1] == 'm';
    assert |c| < 3 || c[2] != ' ';
    forall j | 0 <= j < |WindowsTable|
      ensures !StartsWith(c, WindowsTable[j].prefix)
    {
      if j == 2 {
        if |c| >= 3 {
          DiffersAt(c, WindowsTable[j].prefix, 2);
        }
      } else {
        DiffersAt(c, WindowsTable[j].prefix, 0);
      }
    }
    WindowsUnlisted(c, true);
  }

  /** `cat <args>` is decided by the `cat ` row. */
  lemma ShowFileRowDecides(args: string)
    ensures ForPlatform("cat " + args, true) == Apply(WindowsTable[3], "cat " + args).value
  {
    var c := "cat " + args;
    assert c[0] == 'c' && c[1] == 'a' && c[2] == 't' && c[3] == ' ';
    DiffersAt(c, WindowsTable[0].prefix, 0);
    DiffersAt(c, WindowsTable[1].prefix, 0);
    DiffersAt(c, WindowsTable[2].prefix, 0);
    assert c[..4] == "cat ";
    WindowsFirstPrefix(c, 3);
  }

  /** The `cat ` row renames `cat` to `type` and keeps the arguments. */
  lemma ShowFileRowRenames(args: string)
    ensures Apply(WindowsTable[3], "cat " + args).value == "type " + args
  {
    var c := "cat " + args;
    assert c[..4] == "cat ";
    ReplaceFirstAtPrefix(c, "cat", "type");
    assert c[3..] == " " + args;
  }

  /** `cat <args>` becomes `type <args>`. */
  lemma WindowsShowFile(args: string)
    ensures ForPlatform("cat " + args, true) == "type " + args
  {
    ShowFileRowDecides(args);
    ShowFileRowRenames(args);
  }

  /**
   * The `cat ` row needs the space: a bare `cat`, or `cat` followed by
   * anything but a space (`category`), runs unchanged on Windows.
   */
  lemma WindowsCatNeedsSpace(rest: string)
    requires rest == [] || rest[0] != ' '
    ensures ForPlatform("cat" + rest, true) == "cat" + rest
  {
    var c := "cat" + rest;
    assert c[0] == 'c' && c[1] == 'a' && c[2] == 't';
    assert |c| < 4 || c[3] != ' ';
    forall j | 0 <= j < |WindowsTable|
      ensures !StartsWith(c, WindowsTable[j].prefix)
    {
      if j == 3 {
        if |c| >= 4 {
          DiffersAt(c, WindowsTable[j].prefix, 3);
        }
      } else {
        DiffersAt(c, WindowsTable[j].prefix, 0);
      }
    }
    WindowsUnlisted(c, true);
  }

  /** Anything starting `ls` has that `ls` turned into `dir`, the rest kept. */
  lemma WindowsList(rest: string)
    ensures ForPlatform("ls" + rest, true) == "dir" + rest
  {
    var c := "ls" + rest;
    assert c[..2] == "ls";
    WindowsFirstPrefix(c, 0);
    ReplaceFirstAtPrefix(c, "ls", "dir");
    assert c[2..] == rest;
  }

  /** Anything starting `ps` becomes plain `tasklist`; its arguments are dropped. */
  lemma WindowsProcesses(rest: string)
    ensures ForPlatform("ps" + rest, true) == "tasklist"
  {
    var c := "ps" + rest;
    assert c[0] == 'p' && c[1] == 's';
    assert c[..2] == "ps";
    WindowsFirstPrefix(c, 6);
  }

  /** Anything starting `pwd` becomes plain `cd`. */
  lemma WindowsWorkingDir(rest: string)
    ensures ForPlatform("pwd" + rest, true) == "cd"
  {
    var c := "pwd" + rest;
    assert c[0] == 'p' && c[1] == 'w' && c[2] == 'd';
    DiffersAt(c, WindowsTable[0].prefix, 0);
    assert c[..3] == "pwd";
    WindowsFirstPrefix(c, 1);
  }

  /** Anything starting `uname` becomes plain `ver`. */
  lemma WindowsSystem(rest: string)
    ensures ForPlatform("uname" + rest, true) == "ver"
  {
    var c := "uname" + rest;
    assert c[0] == 'u';
    assert c[..5] == "uname";
    WindowsFirstPrefix(c, 4);
  }

  /** Anything starting `df` becomes the fixed disk query. */
  lemma WindowsDisk(rest: string)
    ensures ForPlatform("df" + rest, true) == "wmic logicaldisk get size,freespace,caption"
  {
    var c := "df" + rest;
    assert c[0] == 'd' && c[1] == 'f';
    assert c[..2] == "df";
    WindowsFirstPrefix(c, 5);
  }

  /** Off Windows every command is run as it is. */
  lemma OtherPlatformsUnchanged(command: string)
    ensures ForPlatform(command, false) == command
  {
  }

  // History properties

  /** Reads a line `<n>: <command>` back into its number and command. */
  function ParseHistoryLine(line: string): Option<(nat, string)> {
    var n := DigitRun(line);
    if n == 0 || !StartsWith(line[n..], ": ") then None
    else Some((DecimalValue(line[..n]), line[n + 2..]))
  }

  /** A digit string, a colon and a space, then any text, parse as that number and text. */
  lemma ParseDigitsColon(d: string, rest: string)
    requires |d| > 0 && AllDigits(d)
    ensures ParseHistoryLine(d + (": " + rest)) == Some((DecimalValue(d), rest))
  {
    var line := d + (": " + rest);
    var sep := ": " + rest;
    assert sep[0] == ':';
    DigitRunOf(d, sep);
    assert line[..|d|] == d;
    assert line[|d|..] == sep;
    assert sep[..2] == ": ";
    assert line[|d| + 2..] == rest;
  }

  /** A rendered history line gives back its number and command. */
  lemma HistoryLineRoundTrip(index: nat, r: Record)
    ensures ParseHistoryLine(HistoryLine(index, r)) == Some((index, r.command))
  {
    var d := Decimal(index);
    assert HistoryLine(index, r) == d + (": " + r.command);
    ParseDigitsColon(d, r.command);
    DecimalRoundTrip(index);
  }

  /** Logging one more command adds one numbered line at the end of the rendering. */
  lemma RenderHistoryExtends(h: seq<Record>, r: Record)
    ensures RenderHistory(h + [r])
            == (if |h| == 0 then "" else RenderHistory(h) + "\n") + HistoryLine(|h| + 1, r)
  {
    var lines := HistoryLines(h + [r]);
    assert lines == HistoryLines(h) + [HistoryLine(|h| + 1, r)];
    if |h| > 0 {
      JoinSnoc(HistoryLines(h), HistoryLine(|h| + 1, r), "\n");
    }
  }

  // Step properties

  /** `clear` answers with empty output and leaves the directory. */
  lemma ClearReply(s: Session, timestamp: string, host: Host)
    ensures Execute(s, "clear", timestamp, host)
            == StepResult(Session(s.cwd, s.history + [Record("clear", timestamp)]), Reply("", false))
  {
    Translator.SingleWordPassesThrough("clear");
  }

  /** `help` answers with the fixed help text. */
  lemma HelpReply(s: Session, timestamp: string, host: Host)
    ensures Execute(s, "help", timestamp, host)
            == StepResult(Session(s.cwd, s.history + [Record("help", timestamp)]), Reply(HelpText, false))
  {
    Translator.SingleWordPassesThrough("help");
  }

  /** `history` lists every logged command, itself included as the last line. */
  lemma HistoryReply(s: Session, timestamp: string, host: Host)
    ensures var h := s.history + [Record("history", timestamp)];
            Execute(s, "history", timestamp, host) == StepResult(Session(s.cwd, h), Reply(RenderHistory(h), false))
  {
    Translator.SingleWordPassesThrough("history");
  }

  /** `cd <target>` asks to change to the stripped target. */
  lemma DispatchChangeDir(target: string, isWindows: bool)
    ensures Dispatch("cd " + target, isWindows) == ChangeDir(Strip(target))
  {
    var c := "cd " + target;
    assert c[1] == 'd' && c[0] == 'c';
    assert c != "clear" by { assert "clear"[1] == 'l'; }
    assert c != "history" by { assert "history"[0] == 'h'; }
    assert c != "help" by { assert "help"[0] == 'h'; }
    assert c[..3] == "cd " && c[3..] == target;
  }

  /** A command that reads `cd <target>` moves to the resolved path exactly when it is a directory. */
  lemma ChangeDirectory(s: Session, command: string, timestamp: string, host: Host, target: string)
    requires Translator.Translate(command) == "cd " + target
    ensures var path := host.resolve(s.cwd, Strip(target));
            var r := Execute(s, command, timestamp, host);
            if host.isDir(path) then
              r.session.cwd == path && r.reply == Reply("Changed directory to: " + path, false)
            else
              r.session.cwd == s.cwd && r.reply == Reply("No such directory: " + Strip(target), true)
  {
    DispatchChangeDir(target, host.isWindows);
  }

  /**
   * A command that translates to neither a built-in nor `cd` runs through the
   * shell, in the platform's spelling and the session's directory: the reply
   * is the run's assembled answer, and the directory stays where it was.
   */
  lemma ShellReply(s: Session, command: string, timestamp: string, host: Host)
    requires var t := Translator.Translate(command);
             !StartsWith(t, "cd ") && t != "clear" && t != "history" && t != "help"
    ensures var t := Translator.Translate(command);
            var r := Execute(s, command, timestamp, host);
            r.session == Session(s.cwd, s.history + [Record(command, timestamp)])
            && r.reply == Assemble(host.run(ForPlatform(t, host.isWindows), s.cwd))
  {
  }

  /** The reply is an error exactly when `cd` misses a directory or the shell command fails. */
  lemma RespondErrorIff(logged: Session, interpreted: string, host: Host)
    ensures var a := Dispatch(interpreted, host.isWindows);
            Respond(logged, interpreted, host).reply.error
            <==> (a.ChangeDir? && !host.isDir(host.resolve(logged.cwd, a.target)))
                 || (a.Shell? && !(host.run(a.command, logged.cwd).Exited? && host.run(a.command, logged.cwd).code == 0))
  {
  }

  /** A reply is an error exactly when a `cd` target is not a directory or a shell run does not exit 0. */
  lemma ErrorIff(s: Session, command: string, timestamp: string, host: Host)
    ensures var a := Dispatch(Translator.Translate(command), host.isWindows);
            Execute(s, command, timestamp, host).reply.error
            <==> (a.ChangeDir? && !host.isDir(host.resolve(s.cwd, a.target)))
                 || (a.Shell? && !(host.run(a.command, s.cwd).Exited? && host.run(a.command, s.cwd).code == 0))
  {
    RespondErrorIff(s.(history := s.history + [Record(command, timestamp)]), Translator.Translate(command), host);
  }
}

=== FILE: options.dfy ===
/** An optional value that can be used with `:-`, for matchers that may fail. */
module Options {

  datatype Option<+T> = None | Some(value: T) {

    predicate IsFailure() {
      None?
    }

    function PropagateFailure<U>(): Option<U>
      requires None?
    {
      None
    }

    function Extract(): T
      requires Some?
    {
      value
    }
  }
}

=== FILE: patterns.dfy ===
/**
 * Hand-coded pieces of the regular expressions the translator uses. A matcher
 * takes the text at the current position and returns what is left after it,
 * or `None` when it does not match there.
 *
 * Two simplifications of backtracking are exact for every pattern of the
 * translator, and every matcher below relies on them:
 * - `\s+` takes the whole whitespace run. Where a literal word or `\w+`
 *   follows, no other split can match, since those begin with a non-space
 *   character. Two places differ: in `of\s+(.+)` the `.+` may begin on
 *   whitespace, and `Translator.OfPath` models that backtracking; in the
 *   file rules `\s+(.*?)` is followed only by parts that can match empty,
 *   so all that matters is whether `\s+` matches at all, which is all
 *   `Translator.VerbSpaceAt` reports;
 * - an alternation commits to its first matching alternative, because the
 *   alternatives of each group either begin with distinct letters or end
 *   the pattern.
 */
module Patterns {
  import opened Options
  import opened Text

  /** Words separated by `\s+`, as in `running\s+tasks`. */
  type Phrase = seq<string>

  /** An alternation `(?:p1|p2|...)`, tried left to right. */
  type Choice = seq<Phrase>

  /** Length of the whitespace run at the start of `t`. */
  function SpaceRun(t: string): (n: nat)
    ensures n <= |t|
    ensures forall k :: 0 <= k < n ==> IsSpace(t[k])
    ensures n < |t| ==> !IsSpace(t[n])
  {
    if |t| > 0 && IsSpace(t[0]) then 1 + SpaceRun(t[1..]) else 0
  }

  /** `\s+`: consumes the whole whitespace run at the start of `t`. */
  function Spaces(t: string): (r: Option<string>)
    ensures r.Some? <==> |t| > 0 && IsSpace(t[0])
    ensures r.Some? ==> r.value == t[SpaceRun(t)..]
    ensures r.Some? ==> forall k :: 0 <= k < |t| - |r.value| ==> IsSpace(t[k])
    ensures r.Some? ==> IsSuffix(r.value, t) && HasSpace(t)
    ensures r.Some? ==> |r.value| > 0 ==> !IsSpace(r.value[0])
  {
    var n := SpaceRun(t);
    if n == 0 then None else Some(t[n..])
  }

  /** A literal word. */
  function Literal(t: string, w: string): (r: Option<string>)
    ensures r.Some? <==> StartsWith(t, w)
    ensures r.Some? ==> IsSuffix(r.value, t)
  {
    if StartsWith(t, w) then Some(t[|w|..]) else None
  }

  /** A phrase: its first word, then `\s+` and a word for each further word. */
  function PhraseAt(t: string, p: Phrase): (r: Option<string>)
    ensures r.Some? ==> IsSuffix(r.value, t)
    ensures r.Some? && |p| > 0 ==> StartsWith(t, p[0])
  {
    if |p| == 0 then Some(t)
    else
      var u :- Literal(t, p[0]);
      if |p| == 1 then Some(u)
      else
        var v :- Spaces(u);
        match PhraseAt(v, p[1..])
        case None => None
        case Some(w) =>
          SuffixTrans(w, v, u);
          SuffixTrans(w, u, t);
          Some(w)
  }

  /** The first alternative of `c` that matches at `t`. */
  function ChoiceAt(t: string, c: Choice): (r: Option<string>)
    ensures r.Some? ==> IsSuffix(r.value, t)
    ensures r.Some? ==> exists k :: 0 <= k < |c| && PhraseAt(t, c[k]) == r
  {
    if |c| == 0 then None
    else if PhraseAt(t, c[0]).Some? then PhraseAt(t, c[0])
    else ChoiceAt(t, c[1..])
  }

  /** `(?:..)?` around a word followed by `\s+`, as `(?:new\s+)?`: taken when it matches. */
  function OptionalWord(t: string, w: string): (r: string)
    ensures IsSuffix(r, t)
    ensures r == if WordThenSpace(t, w) then After(t, w) else t
  {
    match Literal(t, w)
    case Some(u) => (match Spaces(u) case Some(v) => v case None => t)
    case None => t
  }

  /** `w` stands at the start of `t` and whitespace follows it. */
  predicate WordThenSpace(t: string, w: string) {
    StartsWith(t, w) && |w| < |t| && IsSpace(t[|w|])
  }

  /** What follows `w\s+` at the start of `t`; the whole whitespace run is consumed. */
  function After(t: string, w: string): (r: string)
    requires WordThenSpace(t, w)
    ensures IsSuffix(r, t) && |r| < |t| - |w|
    ensures |r| > 0 ==> !IsSpace(r[0])
  {
    var u := t[|w|..];
    u[SpaceRun(u)..]
  }

  /** A gap of whitespace before text that does not start with whitespace is one whole run. */
  lemma {:induction false} SpaceRunOf(gap: string, rest: string)
    requires IsBlank(gap)
    requires |rest| == 0 || !IsSpace(rest[0])
    ensures SpaceRun(gap + rest) == |gap|
    decreases |gap|
  {
    if |gap| > 0 {
      assert (gap + rest)[1..] == gap[1..] + rest;
      SpaceRunOf(gap[1..], rest);
    } else {
      assert gap + rest == rest;
    }
  }

  /** Whatever whitespace separates `w` from the text after it, `After` finds that text. */
  lemma AfterGap(w: string, gap: string, rest: string)
    requires |gap| > 0 && IsBlank(gap)
    requires |rest| == 0 || !IsSpace(rest[0])
    ensures WordThenSpace(w + gap + rest, w) && After(w + gap + rest, w) == rest
  {
    var t := w + gap + rest;
    assert t[..|w|] == w;
    assert t[|w|..] == gap + rest;
    SpaceRunOf(gap, rest);
    assert (gap + rest)[|gap|..] == rest;
  }

  /**
   * A phrase as its regular expression reads: `t` starts with the words of
   * `p` in order, each separated from the next by whitespace.
   */
  predicate Spelled(t: string, p: Phrase)
    decreases |p|
  {
    if |p| == 0 then true
    else if |p| == 1 then StartsWith(t, p[0])
    else WordThenSpace(t, p[0]) && Spelled(After(t, p[0]), p[1..])
  }

  /** The text that follows a spelled phrase. */
  function SpelledRest(t: string, p: Phrase): string
    requires Spelled(t, p)
    decreases |p|
  {
    if |p| == 0 then t
    else if |p| == 1 then t[|p[0]|..]
    else SpelledRest(After(t, p[0]), p[1..])
  }

  lemma SpelledHead(t: string, p: Phrase)
    requires |p| > 0 && Spelled(t, p)
    ensures StartsWith(t, p[0])
  {
  }

  /** `PhraseAt` matches exactly where the phrase is spelled, and leaves what follows it. */
  lemma {:induction false} PhraseAtSpec(t: string, p: Phrase)
    ensures PhraseAt(t, p) == if Spelled(t, p) then Some(SpelledRest(t, p)) else None
    decreases |p|
  {
    if |p| > 1 && WordThenSpace(t, p[0]) {
      PhraseAtSpec(After(t, p[0]), p[1..]);
    }
  }

  /** Alternatives whose first words are non-empty and begin with pairwise different characters. */
  predicate DistinctHeads(c: Choice) {
    && (forall k :: 0 <= k < |c| ==> |c[k]| > 0 && |c[k][0]| > 0)
    && (forall j, k :: 0 <= j < k < |c| ==> c[j][0][0] != c[k][0][0])
  }

  /** Every alternative is a single word. */
  predicate SingleWords(c: Choice) {
    forall k :: 0 <= k < |c| ==> |c[k]| == 1
  }

  /** One-word alternatives with distinct first letters, as every verb group of the rules. */
  predicate DistinctVerbs(c: Choice) {
    DistinctHeads(c) && SingleWords(c)
  }

  /**
   * With distinct heads at most one alternative is spelled at `t`, so taking
   * the first that matches loses nothing: the alternation matches exactly
   * when some alternative is spelled there, and leaves what follows it.
   */
  lemma {:induction false} ChoiceAtSpec(t: string, c: Choice)
    requires DistinctHeads(c)
    ensures ChoiceAt(t, c).Some? <==> exists j :: 0 <= j < |c| && Spelled(t, c[j])
    ensures forall j :: 0 <= j < |c| && Spelled(t, c[j]) ==> ChoiceAt(t, c) == Some(SpelledRest(t, c[j]))
    decreases |c|
  {
    if |c| > 0 {
      PhraseAtSpec(t, c[0]);
      assert forall j :: 1 <= j < |c| ==> c[1..][j - 1] == c[j];
      if Spelled(t, c[0]) {
        FirstExcludesRest(t, c);
      } else {
        ChoiceAtSpec(t, c[1..]);
      }
    }
  }

  /** With distinct heads, once the first alternative is spelled no other one is. */
  lemma FirstExcludesRest(t: string, c: Choice)
    requires DistinctHeads(c) && |c| > 0 && Spelled(t, c[0])
    ensures forall j :: 1 <= j < |c| ==> !Spelled(t, c[j])
  {
    forall j | 1 <= j < |c|
      ensures !Spelled(t, c[j])
    {
      SpelledHead(t, c[0]);
    }
  }

  /**
   * A group of one-word alternatives with distinct heads matches exactly
   * where one of its words stands, and leaves what follows that word.
   */
  lemma WordChoiceSpec(t: string, c: Choice)
    ensures DistinctVerbs(c) ==> (ChoiceAt(t, c).Some? <==> exists k :: 0 <= k < |c| && StartsWith(t, c[k][0]))
    ensures forall k :: 0 <= k < |c| && DistinctVerbs(c) && StartsWith(t, c[k][0])
                        ==> ChoiceAt(t, c) == Some(t[|c[k][0]|..])
  {
    if DistinctVerbs(c) {
      ChoiceAtSpec(t, c);
    }
  }

  /** Each of `cs` has distinct heads. */
  predicate AllDistinct(cs: seq<Choice>) {
    forall g :: 0 <= g < |cs| ==> DistinctHeads(cs[g])
  }

  /**
   * Alternations separated by whitespace, as their regular expression reads:
   * an alternative of the first is spelled at `t`, and after it whitespace
   * and the rest of the alternations.
   */
  predicate ChoicesSpelled(t: string, cs: seq<Choice>)
    decreases |cs|
  {
    if |cs| == 0 then true
    else exists j :: 0 <= j < |cs[0]| && Spelled(t, cs[0][j])
                     && (|cs| == 1 || (var r := SpelledRest(t, cs[0][j]);
                                       |r| > 0 && IsSpace(r[0]) && ChoicesSpelled(r[SpaceRun(r)..], cs[1..])))
  }

  /** Alternations separated by `\s+`, the shape of every "show ..." rule. */
  function ChoicesAt(t: string, cs: seq<Choice>): (r: Option<string>)
    ensures r.Some? ==> IsSuffix(r.value, t)
  {
    if |cs| == 0 then Some(t)
    else
      var u :- ChoiceAt(t, cs[0]);
      if |cs| == 1 then Some(u)
      else
        var v :- Spaces(u);
        match ChoicesAt(v, cs[1..])
        case None => None
        case Some(w) =>
          SuffixTrans(w, v, u);
          SuffixTrans(w, u, t);
          Some(w)
  }

  /** Alternations with distinct heads match exactly where they are spelled. */
  lemma {:induction false} ChoicesAtSpec(t: string, cs: seq<Choice>)
    requires AllDistinct(cs)
    ensures ChoicesAt(t, cs).Some? <==> ChoicesSpelled(t, cs)
    decreases |cs|
  {
    if |cs| > 0 {
      ChoiceAtSpec(t, cs[0]);
      if |cs| > 1 {
        assert AllDistinct(cs[1..]) by {
          assert forall g :: 1 <= g < |cs| ==> cs[1..][g - 1] == cs[g];
        }
        if ChoiceAt(t, cs[0]).Some? {
          var j :| 0 <= j < |cs[0]| && Spelled(t, cs[0][j]);
          var r := SpelledRest(t, cs[0][j]);
          if |r| > 0 && IsSpace(r[0]) {
            ChoicesAtSpec(r[SpaceRun(r)..], cs[1..]);
          }
        }
      }
    }
  }

  /** The leading run of `\w` characters of `t`, as `\w+` takes it (greedy). */
  function WordRun(t: string): (w: string)
    ensures |w| <= |t| && w == t[..|w|]
    ensures forall k :: 0 <= k < |w| ==> IsWordChar(w[k])
    ensures |w| < |t| ==> !IsWordChar(t[|w|])
  {
    if |t| > 0 && IsWordChar(t[0]) then [t[0]] + WordRun(t[1..]) else []
  }

  /** The leading run of characters other than newline, as `.+` takes it (greedy). */
  function LineRun(t: string): (w: string)
    ensures |w| <= |t| && w == t[..|w|]
    ensures forall k :: 0 <= k < |w| ==> w[k] != '\n'
    ensures |w| < |t| ==> t[|w|] == '\n'
  {
    if |t| > 0 && t[0] != '\n' then [t[0]] + LineRun(t[1..]) else []
  }

  /**
   * `re.search`: the result of `m` at the leftmost position where it matches,
   * trying the positions 0, 1, ..., |s| in turn.
   */
  function Search<T>(s: string, m: string -> Option<T>): (r: Option<T>)
    ensures r.Some? <==> exists i :: 0 <= i <= |s| && m(s[i..]).Some?
    ensures r.Some? ==> exists i :: 0 <= i <= |s| && m(s[i..]) == r
                                    && forall j :: 0 <= j < i ==> m(s[j..]).None?
  {
    var i := FirstSuffix(s, t => m(t).Some?);
    if i <= |s| then m(s[i..]) else None
  }

  /** The position where a successful search matched, with no match before it. */
  lemma SearchFound<T>(s: string, m: string -> Option<T>) returns (i: nat)
    requires Search(s, m).Some?
    ensures i <= |s| && m(s[i..]) == Search(s, m)
    ensures forall j :: 0 <= j < i ==> m(s[j..]).None?
  {
    i :| 0 <= i <= |s| && m(s[i..]) == Search(s, m) && forall j :: 0 <= j < i ==> m(s[j..]).None?;
  }

  /** A search whose matcher needs whitespace cannot succeed on text without whitespace. */
  lemma SearchNeedsSpace<T>(s: string, m: string -> Option<T>)
    requires forall t :: m(t).Some? ==> HasSpace(t)
    requires !HasSpace(s)
    ensures Search(s, m).None?
  {
    if Search(s, m).Some? {
      var i :| 0 <= i <= |s| && m(s[i..]).Some?;
      SuffixKeepsSpace(s[i..], s);
    }
  }

  /** A search whose matcher needs one of `heads` first finds nothing in text without them. */
  lemma SearchNeedsHead<T>(s: string, m: string -> Option<T>, heads: set<char>)
    requires forall t :: m(t).Some? ==> |t| > 0 && t[0] in heads
    requires forall k :: 0 <= k < |s| ==> s[k] !in heads
    ensures Search(s, m).None?
  {
  }

  /** A search that fails at the first position goes on with the rest of the text. */
  lemma SearchSkip<T>(s: string, m: string -> Option<T>)
    requires |s| > 0 && m(s).None?
    ensures Search(s, m) == Search(s[1..], m)
  {
    assert forall i :: 1 <= i <= |s| ==> s[1..][i - 1..] == s[i..];
    assert s[0..] == s;
  }

  /** A search that matches at the first position returns that match. */
  lemma SearchHere<T>(s: string, m: string -> Option<T>)
    requires m(s).Some?
    ensures Search(s, m) == m(s)
  {
    assert s[0..] == s;
  }

  /**
   * First match wins: the output of the first of `rules` that fires, if any.
   * A rule is consulted only when every rule before it failed.
   */
  function Cascade<R, T>(rules: seq<R>, fire: R -> Option<T>): (r: Option<T>)
    ensures r.None? <==> forall k :: 0 <= k < |rules| ==> fire(rules[k]).None?
    ensures r.Some? ==> exists k :: 0 <= k < |rules| && fire(rules[k]) == r
    ensures forall k :: 0 <= k < |rules| && fire(rules[k]).Some?
                        && (forall j :: 0 <= j < k ==> fire(rules[j]).None?)
                        ==> r == fire(rules[k])
  {
    if |rules| == 0 then None
    else if fire(rules[0]).Some? then fire(rules[0])
    else
      var r := Cascade(rules[1..], fire);
      assert forall j :: 1 <= j < |rules| ==> rules[1..][j - 1] == rules[j];
      r
  }

  /** None of the first `k` rules fires, stated rule by rule from the last. */
  predicate NoneFires<R, T>(rules: seq<R>, fire: R -> Option<T>, k: nat)
    requires k <= |rules|
  {
    k == 0 || (fire(rules[k - 1]).None? && NoneFires(rules, fire, k - 1))
  }

  lemma {:induction false} NoneFiresAll<R, T>(rules: seq<R>, fire: R -> Option<T>, k: nat)
    requires k <= |rules|
    ensures NoneFires(rules, fire, k) <==> forall j :: 0 <= j < k ==> fire(rules[j]).None?
  {
    if k > 0 {
      NoneFiresAll(rules, fire, k - 1);
    }
  }

  /** The rule at `k` decides the cascade once the rules before it are silent. */
  lemma CascadeAt<R, T>(rules: seq<R>, fire: R -> Option<T>, k: nat)
    requires k < |rules| && NoneFires(rules, fire, k) && fire(rules[k]).Some?
    ensures Cascade(rules, fire) == fire(rules[k])
  {
    NoneFiresAll(rules, fire, k);
  }
}

=== FILE: routes.dfy ===
/**
 * The HTTP surface kept in the model: `/execute`, which refuses a blank
 * command before anything is logged, and `/suggest`, which offers the
 * catalogue commands starting with what has been typed. Request parsing
 * and JSON are left to the framework; a missing field arrives here as "".
 */
module Routes {
  import opened Text
  import opened Executor

  const NoCommand: Reply := Reply("No command provided", true)

  /** `/execute`: strip the command; a blank one is refused and not logged. */
  function HandleExecute(s: Session, raw: string, timestamp: string, host: Host): (r: StepResult)
    ensures IsBlank(raw) ==> r == StepResult(s, NoCommand)
    ensures !IsBlank(raw) ==> r == Execute(s, Strip(raw), timestamp, host)
    ensures r.session.history
            == s.history + (if IsBlank(raw) then [] else [Record(Strip(raw), timestamp)])
  {
    StripEmptyIffBlank(raw);
    var command := Strip(raw);
    if command == "" then StepResult(s, NoCommand)
    else Execute(s, command, timestamp, host)
  }

  /** One call of `/execute`: the `command` field and the moment it arrives. */
  datatype Request = Request(command: string, timestamp: string)

  /** The session after `step` has served `requests` one after another. */
  function Run(s: Session, requests: seq<Request>, step: (Session, Request) -> Session): Session
    decreases |requests|
  {
    if |requests| == 0 then s else Run(step(s, requests[0]), requests[1..], step)
  }

  /** `/execute` as a step from one session to the next. */
  function Step(host: Host): (Session, Request) -> Session {
    (s: Session, r: Request) => HandleExecute(s, r.command, r.timestamp, host).session
  }

  /** The session after serving `requests` one after another. */
  function Serve(s: Session, requests: seq<Request>, host: Host): Session {
    Run(s, requests, Step(host))
  }

  /** What one request should add to the history: its stripped command, unless it is blank. */
  function Gained(r: Request): seq<Record> {
    if IsBlank(r.command) then [] else [Record(Strip(r.command), r.timestamp)]
  }

  /** What each of `requests` adds, by `gain`, one after another. */
  function Collect(requests: seq<Request>, gain: Request -> seq<Record>): seq<Record>
    decreases |requests|
  {
    if |requests| == 0 then [] else gain(requests[0]) + Collect(requests[1..], gain)
  }

  lemma RunFirst(s: Session, requests: seq<Request>, step: (Session, Request) -> Session)
    requires |requests| > 0
    ensures Run(s, requests, step) == Run(step(s, requests[0]), requests[1..], step)
  {
  }

  /** A step that appends `gain(r)` for each request appends all the gains, in order. */
  lemma {:induction false} RunCollects(s: Session, requests: seq<Request>, step: (Session, Request) -> Session,
                                       gain: Request -> seq<Record>)
    requires forall t, r :: step(t, r).history == t.history + gain(r)
    ensures Run(s, requests, step).history == s.history + Collect(requests, gain)
    decreases |requests|
  {
    if |requests| > 0 {
      var r := requests[0];
      var next := step(s, r);
      RunFirst(s, requests, step);
      RunCollects(next, requests[1..], step, gain);
      var h, g, rest := s.history, gain(r), Collect(requests[1..], gain);
      assert next.history == h + g;
      assert h + g + rest == h + (g + rest);
    }
  }

  /** The history is append-only and records exactly the non-blank requests, stripped, in order. */
  lemma ServeLogs(s: Session, requests: seq<Request>, host: Host)
    ensures Serve(s, requests, host).history == s.history + Collect(requests, Gained)
  {
    var step := Step(host);
    forall t, r
      ensures step(t, r).history == t.history + Gained(r)
    {
      assert step(t, r) == HandleExecute(t, r.command, r.timestamp, host).session;
    }
    RunCollects(s, requests, step, Gained);
  }

  // Suggestions

  /** The commands offered for completion, in display order. */
  const Catalog: seq<string> := [
    "help", "clear", "history", "ls", "pwd", "cd", "mkdir", "rm", "cat",
    "whoami", "date", "ps", "df", "uname", "echo", "exit"
  ]

  /** The entries of `xs` that start with `prefix`, in their original order. */
  function Filter(xs: seq<string>, prefix: string): (r: seq<string>)
    ensures forall x :: x in r <==> x in xs && StartsWith(x, prefix)
    ensures |r| <= |xs|
  {
    if |xs| == 0 then []
    else if StartsWith(xs[0], prefix) then [xs[0]] + Filter(xs[1..], prefix)
    else Filter(xs[1..], prefix)
  }

  /** Filtering distributes over concatenation, so order is kept. */
  lemma {:induction false} FilterAppend(a: seq<string>, b: seq<string>, prefix: string)
    ensures Filter(a + b, prefix) == Filter(a, prefix) + Filter(b, prefix)
  {
    if |a| > 0 {
      assert (a + b)[1..] == a[1..] + b;
      FilterAppend(a[1..], b, prefix);
    } else {
      assert a + b == b;
    }
  }

  /** Nothing is dropped when every entry qualifies. */
  lemma {:induction false} FilterAll(xs: seq<string>, prefix: string)
    requires forall k :: 0 <= k < |xs| ==> StartsWith(xs[k], prefix)
    ensures Filter(xs, prefix) == xs
  {
    if |xs| > 0 {
      FilterAll(xs[1..], prefix);
    }
  }

  /** Nothing is kept when no entry qualifies. */
  lemma FilterNone(xs: seq<string>, prefix: string)
    requires forall k :: 0 <= k < |xs| ==> !StartsWith(xs[k], prefix)
    ensures Filter(xs, prefix) == []
  {
  }

  /** Typing more only narrows the suggestions: a longer prefix keeps a subset, in the same order. */
  lemma {:induction false} FilterNarrows(xs: seq<string>, p: string, q: string)
    requires StartsWith(q, p)
    ensures Filter(Filter(xs, p), q) == Filter(xs, q)
  {
    if |xs| > 0 {
      FilterNarrows(xs[1..], p, q);
      var x := xs[0];
      if StartsWith(x, q) {
        assert x[..|p|] == q[..|p|];
      }
    }
  }

  /** `/suggest`: the catalogue commands starting with the stripped, lower-cased input. */
  function Suggest(input: string): (r: seq<string>)
    ensures forall x :: x in r <==> x in Catalog && StartsWith(x, Lower(Strip(input)))
  {
    Filter(Catalog, Lower(Strip(input)))
  }

  /** Blank input offers the whole catalogue, in order. */
  lemma SuggestBlank(input: string)
    requires IsBlank(input)
    ensures Suggest(input) == Catalog
  {
    StripEmptyIffBlank(input);
    FilterAll(Catalog, "");
  }

  /** Catalogue entries after the third do not start with `h`. */
  lemma CatalogTailNotH()
    ensures forall k :: 0 <= k < |Catalog[3..]| ==> !StartsWith(Catalog[3..][k], "h")
  {
    var back := Catalog[3..];
    forall k | 0 <= k < |back| ensures !StartsWith(back[k], "h") {
      assert back[k][0] != 'h';
      DiffersAt(back[k], "h", 0);
    }
  }

  /** Of the first three entries, `help` and `history` start with `h`. */
  lemma CatalogFrontH()
    ensures Filter(Catalog[..3], "h") == ["help", "history"]
  {
    var front := ["help", "clear", "history"];
    assert Catalog[..3] == front;
    assert Filter(front, "h") == ["help", "history"] by {
      assert "help"[..1] == "h" && "history"[..1] == "h";
      DiffersAt("clear", "h", 0);
    }
  }

  /** The catalogue entries starting with `h` are `help` and `history`, in that order. */
  lemma CatalogH()
    ensures Filter(Catalog, "h") == ["help", "history"]
  {
    assert Catalog == Catalog[..3] + Catalog[3..];
    FilterAppend(Catalog[..3], Catalog[3..], "h");
    CatalogFrontH();
    CatalogTailNotH();
    FilterNone(Catalog[3..], "h");
  }

  /** A single lower-case, non-space character is its own normal form. */
  lemma NormalLetter(c: char)
    requires !IsSpace(c) && !IsUpper(c)
    ensures Lower(Strip([c])) == [c]
  {
    StripTrimmed([c]);
    assert Lower([c])[0] == c;
  }

  /** Typing `h` offers `help` and `history`, in catalogue order. */
  lemma SuggestH()
    ensures Suggest("h") == ["help", "history"]
  {
    NormalLetter('h');
    CatalogH();
  }
}

=== FILE: text.dfy ===
/**
 * The handful of Python `str` operations the terminal relies on:
 * `isspace`/`\s`, `\w`, `lower`, `strip`, `startswith`, `replace(old, new, 1)`,
 * `"sep".join` and `str(int)`.
 */
module Text {

  /** Python's `str.isspace()`; CPython's `\s` in a `str` pattern uses the same table. */
  predicate IsSpace(c: char) {
    || ('\U{09}' <= c <= '\U{0D}')
    || ('\U{1C}' <= c <= '\U{20}')
    || c == '\U{85}' || c == '\U{A0}' || c == '\U{1680}'
    || ('\U{2000}' <= c <= '\U{200A}')
    || c == '\U{2028}' || c == '\U{2029}' || c == '\U{202F}' || c == '\U{205F}' || c == '\U{3000}'
  }

  /** `\w`, restricted to ASCII letters, digits and the underscore. */
  predicate IsWordChar(c: char) {
    ('a' <= c <= 'z') || ('A' <= c <= 'Z') || ('0' <= c <= '9') || c == '_'
  }

  predicate IsUpper(c: char) {
    'A' <= c <= 'Z'
  }

  predicate IsDigit(c: char) {
    '0' <= c <= '9'
  }

  /** True if some character of `s` is whitespace. */
  predicate HasSpace(s: string) {
    exists k :: 0 <= k < |s| && IsSpace(s[k])
  }

  predicate IsSuffix(u: string, t: string) {
    |u| <= |t| && t[|t| - |u|..] == u
  }

  predicate StartsWith(s: string, prefix: string) {
    |prefix| <= |s| && s[..|prefix|] == prefix
  }

  /** A string that differs from `prefix` at a position inside both does not start with it. */
  lemma DiffersAt(s: string, prefix: string, i: nat)
    requires i < |prefix| && i < |s| && s[i] != prefix[i]
    ensures !StartsWith(s, prefix)
  {
  }

  lemma SuffixKeepsSpace(u: string, t: string)
    requires IsSuffix(u, t) && HasSpace(u)
    ensures HasSpace(t)
  {
    var k :| 0 <= k < |u| && IsSpace(u[k]);
    assert t[|t| - |u| + k] == u[k];
  }

  function LowerChar(c: char): (d: char)
    ensures !IsUpper(d)
    ensures IsSpace(d) <==> IsSpace(c)
    ensures IsWordChar(d) <==> IsWordChar(c)
  {
    if IsUpper(c) then (c as int + 32) as char else c
  }

  /** `str.lower()` on the ASCII letters. */
  function Lower(s: string): (r: string)
    ensures |r| == |s|
    ensures forall i :: 0 <= i < |s| ==> r[i] == LowerChar(s[i])
  {
    seq(|s|, i requires 0 <= i < |s| => LowerChar(s[i]))
  }

  lemma LowerConcat(a: string, b: string)
    ensures Lower(a + b) == Lower(a) + Lower(b)
  {
  }

  /** Text without upper-case letters is its own lower-case form. */
  lemma LowerNoUpper(s: string)
    requires forall k :: 0 <= k < |s| ==> !IsUpper(s[k])
    ensures Lower(s) == s
  {
  }

  lemma LowerKeepsNoSpace(s: string)
    requires !HasSpace(s)
    ensures !HasSpace(Lower(s))
  {
  }

  lemma SuffixTrans(u: string, v: string, w: string)
    requires IsSuffix(u, v) && IsSuffix(v, w)
    ensures IsSuffix(u, w)
  {
    assert w[|w| - |u|..] == w[|w| - |v|..][|v| - |u|..];
  }

  /** Characters found in a suffix of `s` are found in `s`. */
  lemma CharsOfSuffix(s: string, i: nat, w: string)
    requires i <= |s| && forall k :: 0 <= k < |w| ==> w[k] in s[i..]
    ensures forall k :: 0 <= k < |w| ==> w[k] in s
  {
    forall k | 0 <= k < |w|
      ensures w[k] in s
    {
      var j :| 0 <= j < |s[i..]| && s[i..][j] == w[k];
      assert s[i + j] == w[k];
    }
  }

  /** Drops the leading whitespace of `s`. */
  function TrimStart(s: string): (r: string)
    ensures IsSuffix(r, s)
    ensures forall k :: 0 <= k < |s| - |r| ==> IsSpace(s[k])
    ensures |r| > 0 ==> !IsSpace(r[0])
  {
    if |s| > 0 && IsSpace(s[0]) then TrimStart(s[1..]) else s
  }

  /** Drops the trailing whitespace of `s`. */
  function TrimEnd(s: string): (r: string)
    ensures |r| <= |s| && r == s[..|r|]
    ensures forall k :: |r| <= k < |s| ==> IsSpace(s[k])
    ensures |r| > 0 ==> !IsSpace(r[|r| - 1])
  {
    if |s| > 0 && IsSpace(s[|s| - 1]) then TrimEnd(s[..|s| - 1]) else s
  }

  /**
   * `str.strip()`: the result is the slice `s[i..j]` that starts and ends with a
   * non-space character, with nothing but whitespace cut on either side.
   */
  function Strip(s: string): (r: string)
    ensures exists i, j :: 0 <= i <= j <= |s| && r == s[i..j]
                           && (forall k :: 0 <= k < i ==> IsSpace(s[k]))
                           && (forall k :: j <= k < |s| ==> IsSpace(s[k]))
    ensures |r| > 0 ==> !IsSpace(r[0]) && !IsSpace(r[|r| - 1])
  {
    StripSlice(s);
    TrimEnd(TrimStart(s))
  }

  /** Trimming both ends leaves the slice between the two cut whitespace runs. */
  lemma StripSlice(s: string)
    ensures var r := TrimEnd(TrimStart(s));
            && (exists i, j :: 0 <= i <= j <= |s| && r == s[i..j]
                               && (forall k :: 0 <= k < i ==> IsSpace(s[k]))
                               && (forall k :: j <= k < |s| ==> IsSpace(s[k])))
            && (|r| > 0 ==> !IsSpace(r[0]) && !IsSpace(r[|r| - 1]))
  {
    var t := TrimStart(s);
    var r := TrimEnd(t);
    var i := |s| - |t|;
    assert t == s[i..];
    assert r == s[i..][..|r|];
    assert |r| > 0 ==> r[0] == t[0];
    forall k | i + |r| <= k < |s|
      ensures IsSpace(s[k])
    {
      assert s[k] == t[k - i];
    }
    assert 0 <= i <= i + |r| <= |s| && r == s[i..i + |r|]
           && (forall k :: 0 <= k < i ==> IsSpace(s[k]))
           && (forall k :: i + |r| <= k < |s| ==> IsSpace(s[k]));
  }

  /** True if every character of `s` is whitespace (so also for ""). */
  predicate IsBlank(s: string) {
    forall k :: 0 <= k < |s| ==> IsSpace(s[k])
  }

  /** Strip yields the empty string exactly for blank input. */
  lemma StripEmptyIffBlank(s: string)
    ensures Strip(s) == "" <==> IsBlank(s)
  {
    if !IsBlank(s) {
      var k :| 0 <= k < |s| && !IsSpace(s[k]);
      var i, j :| 0 <= i <= j <= |s| && Strip(s) == s[i..j]
                  && (forall k :: 0 <= k < i ==> IsSpace(s[k]))
                  && (forall k :: j <= k < |s| ==> IsSpace(s[k]));
      assert i <= k < j;
    }
  }

  /** A string that neither starts nor ends with whitespace is its own strip. */
  lemma StripTrimmed(s: string)
    requires |s| > 0 ==> !IsSpace(s[0]) && !IsSpace(s[|s| - 1])
    ensures Strip(s) == s
  {
    assert TrimStart(s) == s;
  }

  /** A string without whitespace is its own strip. */
  lemma StripNoSpace(s: string)
    requires !HasSpace(s)
    ensures Strip(s) == s
  {
  }

  /**
   * The leftmost position `i` (0 <= i <= |s|) whose suffix `s[i..]` satisfies
   * `p`, or `|s| + 1` when there is none: the scan order of `re.search` and
   * of `str.find`.
   */
  function FirstSuffix(s: string, p: string -> bool): (i: nat)
    ensures i <= |s| + 1
    ensures i <= |s| ==> p(s[i..])
    ensures forall j :: 0 <= j < i && j <= |s| ==> !p(s[j..])
  {
    if p(s) then 0
    else if |s| == 0 then 1
    else
      var i' := FirstSuffix(s[1..], p);
      assert forall j :: 1 <= j <= |s| ==> s[1..][j - 1..] == s[j..];
      1 + i'
  }

  /** `s.replace(target, replacement, 1)`: replaces the first occurrence of `target`, if any. */
  function ReplaceFirst(s: string, target: string, replacement: string): string {
    var i := FirstSuffix(s, t => StartsWith(t, target));
    if i <= |s| then s[..i] + replacement + s[i + |target|..] else s
  }

  /** When `s` starts with `target`, the first occurrence is that prefix and the rest is kept. */
  lemma ReplaceFirstAtPrefix(s: string, target: string, replacement: string)
    requires StartsWith(s, target)
    ensures ReplaceFirst(s, target, replacement) == replacement + s[|target|..]
  {
    assert s[0..] == s;
  }

  /** `sep.join(xs)`. */
  function Join(xs: seq<string>, sep: string): string {
    if |xs| == 0 then ""
    else if |xs| == 1 then xs[0]
    else xs[0] + sep + Join(xs[1..], sep)
  }

  /** A join of one or more texts begins with the first of them and ends with the last. */
  lemma {:induction false} JoinEnds(xs: seq<string>, sep: string)
    requires |xs| > 0
    ensures StartsWith(Join(xs, sep), xs[0])
    ensures IsSuffix(xs[|xs| - 1], Join(xs, sep))
  {
    if |xs| > 1 {
      JoinEnds(xs[1..], sep);
      assert xs[1..][|xs| - 2] == xs[|xs| - 1];
      assert Join(xs, sep) == xs[0] + (sep + Join(xs[1..], sep));
    }
  }

  /** Appending an element extends the joined text by a separator and that element. */
  lemma {:induction false} JoinSnoc(xs: seq<string>, y: string, sep: string)
    requires |xs| > 0
    ensures Join(xs + [y], sep) == Join(xs, sep) + sep + y
  {
    if |xs| > 1 {
      assert (xs + [y])[1..] == xs[1..] + [y];
      JoinSnoc(xs[1..], y, sep);
    } else {
      assert (xs + [y])[1..] == [y];
    }
  }

  function DigitChar(d: nat): (c: char)
    requires d < 10
  {
    ('0' as int + d) as char
  }

  function DigitValue(c: char): (d: nat)
    requires IsDigit(c)
  {
    c as int - '0' as int
  }

  predicate AllDigits(s: string) {
    forall k :: 0 <= k < |s| ==> IsDigit(s[k])
  }

  /** `str(n)` for a natural number: decimal digits, no leading zero. */
  function Decimal(n: nat): (r: string)
    ensures |r| > 0 && AllDigits(r)
    ensures n > 0 ==> r[0] != '0'
  {
    if n < 10 then [DigitChar(n)] else Decimal(n / 10) + [DigitChar(n % 10)]
  }

  /** Reads a run of decimal digits back as a number. */
  function DecimalValue(s: string): nat
    requires AllDigits(s)
  {
    if |s| == 0 then 0 else 10 * DecimalValue(s[..|s| - 1]) + DigitValue(s[|s| - 1])
  }

  /** Rendering a number in decimal and reading it back gives the number. */
  lemma {:induction false} DecimalRoundTrip(n: nat)
    ensures DecimalValue(Decimal(n)) == n
  {
    var r := Decimal(n);
    if n >= 10 {
      assert r[..|r| - 1] == Decimal(n / 10);
      DecimalRoundTrip(n / 10);
    }
  }

  /** Length of the run of decimal digits at the start of `s`. */
  function DigitRun(s: string): (n: nat)
    ensures n <= |s| && AllDigits(s[..n])
    ensures n < |s| ==> !IsDigit(s[n])
  {
    if |s| == 0 || !IsDigit(s[0]) then 0
    else
      var n := 1 + DigitRun(s[1..]);
      assert s[..n] == [s[0]] + s[1..][..n - 1];
      n
  }

  /** A digit string followed by anything but a digit is read as exactly that digit run. */
  lemma {:induction false} DigitRunOf(d: string, t: string)
    requires AllDigits(d)
    requires |t| == 0 || !IsDigit(t[0])
    ensures DigitRun(d + t) == |d|
  {
    if |d| > 0 {
      assert (d + t)[1..] == d[1..] + t;
      DigitRunOf(d[1..], t);
    }
  }
}

=== FILE: translator.dfy ===
/**
 * The natural-language translator: an ordered cascade of pattern rules over
 * the lower-cased, stripped input. The first rule that matches produces the
 * command; when none does, the input is returned exactly as it was given.
 *
 * The matchers take their word groups as parameters, so that what they read
 * is stated once for any groups of distinct one-word alternatives; `Rules`
 * supplies the words of the source's patterns.
 */
module Translator {
  import opened Options
  import opened Text
  import opened Patterns

  const CreateVerbs: Choice := [["create"], ["make"], ["build"]]
  const ShowVerbs: Choice := [["show"], ["display"]]
  const FolderNouns: Choice := [["folder"], ["directory"]]
  const ListVerbs: Choice := [["list"], ["show"]]
  const ListNouns: Choice := [["directory"], ["files"], ["contents"]]
  const CatVerbs: Choice := [["show"], ["display"], ["view"]]
  const RmVerbs: Choice := [["delete"], ["remove"], ["erase"]]

  /** One rule of the cascade. */
  datatype Rule =
    | MakeDir(verbs: Choice, nouns: Choice)           // create a new folder <name>
    | ListDir(verbs: Choice, nouns: Choice)           // list files [of <path>]
    | Keywords(phrase: seq<Choice>, command: string)  // show current directory, ...
    | VerbFile(verbs: Choice, command: string)        // create / show / delete <file>

  const FolderRule: Rule := MakeDir(CreateVerbs, FolderNouns)
  const ListRule: Rule := ListDir(ListVerbs, ListNouns)
  const PwdRule: Rule := Keywords([ShowVerbs, [["current"], ["working"]], [["directory"], ["path"]]], "pwd")
  const UnameRule: Rule := Keywords([ShowVerbs, [["system"], ["os"], ["info"]]], "uname")
  const DateRule: Rule := Keywords([ShowVerbs, [["date"], ["time"]]], "date")
  const WhoamiRule: Rule := Keywords([ShowVerbs, [["user"], ["username"]]], "whoami")
  const PsRule: Rule := Keywords([ShowVerbs, [["processes"], ["running", "tasks"]]], "ps")
  const DfRule: Rule := Keywords([ShowVerbs, [["disk"], ["space"], ["free", "space"]]], "df")
  const TouchRule: Rule := VerbFile(CreateVerbs, "echo '' > ")
  const CatRule: Rule := VerbFile(CatVerbs, "cat ")
  const RmRule: Rule := VerbFile(RmVerbs, "rm ")

  /** The rules in the order they are tried. */
  const Rules: seq<Rule> := [
    FolderRule, ListRule, PwdRule, UnameRule, DateRule, WhoamiRule, PsRule, DfRule, TouchRule, CatRule, RmRule
  ]

  /**
   * The shape the matchers' specifications assume: every verb group is one
   * word per alternative, and the alternatives of every group begin with
   * distinct letters, so that at most one of them can stand at a position.
   */
  predicate WellFormed(rule: Rule) {
    match rule
    case MakeDir(verbs, nouns) => DistinctVerbs(verbs) && DistinctVerbs(nouns)
    case ListDir(verbs, nouns) => DistinctVerbs(verbs) && DistinctVerbs(nouns)
    case Keywords(phrase, _) => |phrase| >= 2 && DistinctVerbs(phrase[0]) && AllDistinct(phrase)
    case VerbFile(verbs, _) => DistinctVerbs(verbs)
  }

  // The folder rule

  /**
   * Where the folder noun must stand: after the verb, its whitespace, and the
   * optional `a\s+` and `new\s+`.
   */
  function NounPlace(t: string, verb: string): string
    requires WordThenSpace(t, verb)
  {
    OptionalWord(OptionalWord(After(t, verb), "a"), "new")
  }

  /** `noun\s+(\w+)` at `u`: the run of word characters after the noun and its whitespace. */
  function NameAfter(u: string, noun: string): Option<string>
    requires WordThenSpace(u, noun)
  {
    var w := WordRun(After(u, noun));
    if |w| == 0 then None else Some(w)
  }

  /**
   * `(?:create|make|build)\s+(?:a\s+)?(?:new\s+)?(?:folder|directory)\s+(\w+)`
   * anchored at `t`, with the verb and noun groups as parameters; yields the
   * captured name.
   */
  function MakeDirAt(t: string, verbs: Choice, nouns: Choice): (name: Option<string>)
    ensures name.Some? ==> |name.value| > 0
    ensures name.Some? ==> forall k :: 0 <= k < |name.value| ==> IsWordChar(name.value[k]) && name.value[k] in t
    ensures name.Some? ==> HasSpace(t)
  {
    var a :- ChoiceAt(t, verbs);
    var b :- Spaces(a);
    var c := OptionalWord(OptionalWord(b, "a"), "new");
    SuffixKeepsSpace(a, t);
    SuffixTrans(c, b, a);
    SuffixTrans(c, a, t);
    FolderName(c, t, nouns)
  }

  /** `(?:folder|directory)\s+(\w+)` anchored at `c`, a suffix of `t`. */
  function FolderName(c: string, t: string, nouns: Choice): (name: Option<string>)
    requires IsSuffix(c, t)
    ensures forall n :: 0 <= n < |nouns| && DistinctVerbs(nouns) && WordThenSpace(c, nouns[n][0])
                        ==> name == NameAfter(c, nouns[n][0])
    ensures DistinctVerbs(nouns) && name.Some? ==> exists n :: 0 <= n < |nouns| && WordThenSpace(c, nouns[n][0])
    ensures name.Some? ==> |name.value| > 0
    ensures name.Some? ==> forall k :: 0 <= k < |name.value| ==> IsWordChar(name.value[k]) && name.value[k] in t
  {
    WordChoiceSpec(c, nouns);
    var d :- ChoiceAt(c, nouns);
    var e :- Spaces(d);
    var w := WordRun(e);
    SuffixTrans(e, d, c);
    SuffixTrans(e, c, t);
    SuffixChars(e, t, w);
    if |w| == 0 then None else Some(w)
  }

  /** Every character of a prefix of a suffix of `t` occurs in `t`. */
  lemma SuffixChars(e: string, t: string, w: string)
    requires IsSuffix(e, t)
    requires |w| <= |e| && w == e[..|w|]
    ensures forall k :: 0 <= k < |w| ==> w[k] in t
  {
    forall k | 0 <= k < |w|
      ensures w[k] in t
    {
      assert t[|t| - |e| + k] == w[k];
    }
  }

  /** A verb of a one-word group followed by whitespace is what the group and `\s+` consume. */
  lemma VerbConsumed(t: string, verbs: Choice, k: nat)
    requires DistinctVerbs(verbs) && k < |verbs| && WordThenSpace(t, verbs[k][0])
    ensures ChoiceAt(t, verbs) == Some(t[|verbs[k][0]|..])
    ensures Spaces(t[|verbs[k][0]|..]) == Some(After(t, verbs[k][0]))
  {
    WordChoiceSpec(t, verbs);
  }

  /** Once the verb is read, the folder pattern is the noun part at the noun's place. */
  lemma MakeDirAtVerb(t: string, verbs: Choice, nouns: Choice, k: nat)
    requires DistinctVerbs(verbs) && k < |verbs| && WordThenSpace(t, verbs[k][0])
    ensures IsSuffix(NounPlace(t, verbs[k][0]), t)
    ensures MakeDirAt(t, verbs, nouns) == FolderName(NounPlace(t, verbs[k][0]), t, nouns)
  {
    var v := verbs[k][0];
    VerbConsumed(t, verbs, k);
    var a, b := t[|v|..], After(t, v);
    var c := NounPlace(t, v);
    SuffixTrans(c, b, a);
    SuffixTrans(c, a, t);
  }

  /** A pattern that opens with a one-word verb group matches only where such a verb is followed by whitespace. */
  lemma OpeningVerb(t: string, verbs: Choice) returns (k: nat)
    requires DistinctVerbs(verbs) && ChoiceAt(t, verbs).Some? && Spaces(ChoiceAt(t, verbs).value).Some?
    ensures k < |verbs| && WordThenSpace(t, verbs[k][0])
    ensures ChoiceAt(t, verbs) == Some(t[|verbs[k][0]|..])
  {
    WordChoiceSpec(t, verbs);
    k :| 0 <= k < |verbs| && StartsWith(t, verbs[k][0]);
  }

  /**
   * The folder pattern: whenever a verb and then a noun stand in their
   * places, the name is the word run after the noun; and there is a name
   * only when they do.
   */
  lemma MakeDirAtSpec(t: string, verbs: Choice, nouns: Choice)
    requires DistinctVerbs(verbs) && DistinctVerbs(nouns)
    ensures forall k, n :: 0 <= k < |verbs| && 0 <= n < |nouns|
                           && WordThenSpace(t, verbs[k][0]) && WordThenSpace(NounPlace(t, verbs[k][0]), nouns[n][0])
                           ==> MakeDirAt(t, verbs, nouns) == NameAfter(NounPlace(t, verbs[k][0]), nouns[n][0])
    ensures MakeDirAt(t, verbs, nouns).Some? ==>
              exists k, n :: 0 <= k < |verbs| && 0 <= n < |nouns|
                             && WordThenSpace(t, verbs[k][0]) && WordThenSpace(NounPlace(t, verbs[k][0]), nouns[n][0])
  {
    forall k, n | 0 <= k < |verbs| && 0 <= n < |nouns|
                  && WordThenSpace(t, verbs[k][0]) && WordThenSpace(NounPlace(t, verbs[k][0]), nouns[n][0])
      ensures MakeDirAt(t, verbs, nouns) == NameAfter(NounPlace(t, verbs[k][0]), nouns[n][0])
    {
      MakeDirAtVerb(t, verbs, nouns, k);
    }
    if MakeDirAt(t, verbs, nouns).Some? {
      var k := OpeningVerb(t, verbs);
      MakeDirAtVerb(t, verbs, nouns, k);
      var n :| 0 <= n < |nouns| && WordThenSpace(NounPlace(t, verbs[k][0]), nouns[n][0]);
    }
  }

  // The listing rule

  /**
   * `(?:list|show)\s+(?:directory|files|contents)(?:\s+of\s+(.+))?` anchored
   * at `t`, with the verb and noun groups as parameters; yields the optional
   * group: `Some(None)` when the pattern matched without its `of` part.
   */
  function ListAt(t: string, verbs: Choice, nouns: Choice): (r: Option<Option<string>>)
    ensures r.Some? ==> HasSpace(t)
  {
    var a :- ChoiceAt(t, verbs);
    var b :- Spaces(a);
    var c :- ChoiceAt(b, nouns);
    SuffixKeepsSpace(a, t);
    Some(OfPath(c))
  }

  /** Once the verb is read, the listing pattern is the noun and the `of` part after it. */
  lemma ListAtVerb(t: string, verbs: Choice, nouns: Choice, k: nat)
    requires DistinctVerbs(verbs) && k < |verbs| && WordThenSpace(t, verbs[k][0])
    ensures ListAt(t, verbs, nouns) == match ChoiceAt(After(t, verbs[k][0]), nouns)
                                       case Some(c) => Some(OfPath(c))
                                       case None => None
  {
    VerbConsumed(t, verbs, k);
  }

  /**
   * The listing pattern matches exactly when a verb, whitespace and a noun
   * stand at `t`, and it reads the `of` part right after the noun.
   */
  lemma ListAtSpec(t: string, verbs: Choice, nouns: Choice)
    requires DistinctVerbs(verbs) && DistinctVerbs(nouns)
    ensures forall k, n :: 0 <= k < |verbs| && 0 <= n < |nouns|
                           && WordThenSpace(t, verbs[k][0]) && StartsWith(After(t, verbs[k][0]), nouns[n][0])
                           ==> ListAt(t, verbs, nouns) == Some(OfPath(After(t, verbs[k][0])[|nouns[n][0]|..]))
    ensures ListAt(t, verbs, nouns).Some? ==>
              exists k, n :: 0 <= k < |verbs| && 0 <= n < |nouns|
                             && WordThenSpace(t, verbs[k][0]) && StartsWith(After(t, verbs[k][0]), nouns[n][0])
  {
    forall k, n | 0 <= k < |verbs| && 0 <= n < |nouns|
                  && WordThenSpace(t, verbs[k][0]) && StartsWith(After(t, verbs[k][0]), nouns[n][0])
      ensures ListAt(t, verbs, nouns) == Some(OfPath(After(t, verbs[k][0])[|nouns[n][0]|..]))
    {
      ListAtVerb(t, verbs, nouns, k);
      WordChoiceSpec(After(t, verbs[k][0]), nouns);
    }
    if ListAt(t, verbs, nouns).Some? {
      var k := OpeningVerb(t, verbs);
      ListAtVerb(t, verbs, nouns, k);
      WordChoiceSpec(After(t, verbs[k][0]), nouns);
      var n :| 0 <= n < |nouns| && StartsWith(After(t, verbs[k][0]), nouns[n][0]);
    }
  }

  /**
   * `\s+of\s+(.+)` at `t`, right after the noun. The first `\s+` must take
   * the whole run to reach `of`; the second gives back whitespace one
   * character at a time until `.+` can start on a character other than
   * newline. The group is the rest of that line from the last such start.
   */
  function OfPath(t: string): (path: Option<string>)
    ensures path.Some? <==> && |t| > 0 && IsSpace(t[0]) && StartsWith(t[SpaceRun(t)..], "of")
                            && var v := t[SpaceRun(t)..][2..];
                               exists j :: 1 <= j <= SpaceRun(v) && j < |v| && v[j] != '\n'
    ensures path.Some? ==> var v := t[SpaceRun(t)..][2..];
                           exists j :: 1 <= j <= SpaceRun(v) && j < |v| && v[j] != '\n'
                                       && path.value == LineRun(v[j..])
                                       && forall i :: j < i <= SpaceRun(v) && i < |v| ==> v[i] == '\n'
    ensures path.Some? ==> |path.value| > 0 && '\n' !in path.value
  {
    match Spaces(t)
    case None => None
    case Some(u) =>
      if StartsWith(u, "of") then BackOff(u[2..], SpaceRun(u[2..])) else None
  }

  /** `\s+(.+)` where `\s+` first tries `k` characters, then fewer: the largest start that works. */
  function BackOff(v: string, k: nat): (path: Option<string>)
    requires k <= SpaceRun(v)
    ensures path.Some? <==> exists j :: 1 <= j <= k && j < |v| && v[j] != '\n'
    ensures path.Some? ==> exists j :: 1 <= j <= k && j < |v| && v[j] != '\n' && path.value == LineRun(v[j..])
                                       && forall i :: j < i <= k && i < |v| ==> v[i] == '\n'
    ensures path.Some? ==> |path.value| > 0 && '\n' !in path.value
    decreases k
  {
    if k == 0 then None
    else if k < |v| && v[k] != '\n' then
      var line := LineRun(v[k..]);
      assert line[0] == v[k];
      Some(line)
    else BackOff(v, k - 1)
  }

  // The keyword and file rules

  /**
   * `verb\s+` followed only by optional parts: the file rules. With distinct
   * one-word verbs it matches exactly where a verb is followed by whitespace.
   */
  function VerbSpaceAt(t: string, verbs: Choice): (r: Option<string>)
    ensures DistinctVerbs(verbs) ==> (r.Some? <==> exists k :: 0 <= k < |verbs| && WordThenSpace(t, verbs[k][0]))
    ensures forall k :: 0 <= k < |verbs| && DistinctVerbs(verbs) && WordThenSpace(t, verbs[k][0])
                        ==> r == Some(After(t, verbs[k][0]))
    ensures r.Some? ==> HasSpace(t)
  {
    WordChoiceSpec(t, verbs);
    var a :- ChoiceAt(t, verbs);
    var b :- Spaces(a);
    SuffixKeepsSpace(a, t);
    Some(b)
  }

  /**
   * The phrase of a keyword rule, anchored at `t`: with distinct heads in
   * every group it matches exactly where the phrase is spelled.
   */
  function KeywordsAt(t: string, phrase: seq<Choice>): (r: Option<string>)
    requires |phrase| >= 2
    ensures AllDistinct(phrase) ==> (r.Some? <==> ChoicesSpelled(t, phrase))
    ensures r.Some? ==> HasSpace(t)
  {
    assert AllDistinct(phrase) ==> (ChoicesAt(t, phrase).Some? <==> ChoicesSpelled(t, phrase)) by {
      if AllDistinct(phrase) {
        ChoicesAtSpec(t, phrase);
      }
    }
    var a :- ChoiceAt(t, phrase[0]);
    var b :- Spaces(a);
    SuffixKeepsSpace(a, t);
    ChoicesAt(b, phrase[1..])
  }

  /** `ls`, with the path of the `of` part when there is one (`if match.group(1)`). */
  function ListCommand(path: Option<string>): string {
    match path
    case Some(p) => if p != "" then "ls " + p else "ls"
    case None => "ls"
  }

  /**
   * The command a rule produces for the normalized input `s`, if it matches.
   * The file rules end in a lazy `(.*?)` followed only by optional parts, so
   * their group is always empty and they produce the bare verb.
   */
  function Fire(rule: Rule, s: string): Option<string> {
    match rule
    case MakeDir(verbs, nouns) =>
      (match Search(s, t => MakeDirAt(t, verbs, nouns))
       case Some(name) => Some("mkdir " + name)
       case None => None)
    case ListDir(verbs, nouns) =>
      (match Search(s, t => ListAt(t, verbs, nouns))
       case Some(path) => Some(ListCommand(path))
       case None => None)
    case Keywords(phrase, command) =>
      if |phrase| >= 2 && Search(s, t => KeywordsAt(t, phrase)).Some? then Some(command) else None
    case VerbFile(verbs, command) =>
      if Search(s, t => VerbSpaceAt(t, verbs)).Some? then Some(command) else None
  }

  /** The text the rules look at: `command.lower().strip()`, in that order. */
  function Normalize(command: string): string {
    Strip(Lower(command))
  }

  /**
   * `parse_natural_language`: the output of the first rule that fires on the
   * normalized input; the untouched input when no rule fires.
   */
  function Translate(command: string): (r: string)
    ensures r == command || exists k :: 0 <= k < |Rules| && Fire(Rules[k], Normalize(command)) == Some(r)
  {
    var s := Normalize(command);
    match Cascade(Rules, rule => Fire(rule, s))
    case Some(c) => c
    case None => command
  }

  // Properties of the cascade

  /**
   * Every rule of the table has the shape the matchers' specifications
   * assume, except the `whoami` rule, whose `(?:user|username)` has two
   * alternatives starting alike; `UserCoversUsername` reduces it to a rule
   * of that shape.
   */
  lemma RulesWellFormed(k: nat)
    requires k < |Rules| && k != 5
    ensures WellFormed(Rules[k])
  {
    if k < 2 {
      VerbRuleWellFormed(k);
    } else if k < 8 {
      KeywordRuleWellFormed(k);
    } else {
      FileRuleWellFormed(k);
    }
  }

  lemma VerbRuleWellFormed(k: nat)
    requires k < 2
    ensures WellFormed(Rules[k])
  {
    var rule := Rules[k];
    assert DistinctHeads(rule.verbs) && SingleWords(rule.verbs);
    assert DistinctHeads(rule.nouns) && SingleWords(rule.nouns);
  }

  lemma FileRuleWellFormed(k: nat)
    requires 8 <= k < |Rules|
    ensures WellFormed(Rules[k])
  {
    var rule := Rules[k];
    assert DistinctHeads(rule.verbs) && SingleWords(rule.verbs);
  }

  lemma KeywordRuleWellFormed(k: nat)
    requires 2 <= k < 8 && k != 5
    ensures WellFormed(Rules[k])
  {
    RulesInOrder();
    ShowVerbsDistinct();
    if k == 2 {
      assert DistinctHeads(PwdRule.phrase[1]) && DistinctHeads(PwdRule.phrase[2]);
    } else if k == 3 {
      assert DistinctHeads(UnameRule.phrase[1]);
    } else if k == 4 {
      assert DistinctHeads(DateRule.phrase[1]);
    } else if k == 6 {
      assert DistinctHeads(PsRule.phrase[1]);
    } else {
      assert DistinctHeads(DfRule.phrase[1]);
    }
  }

  lemma ShowVerbsDistinct()
    ensures DistinctVerbs(ShowVerbs)
  {
  }

  /** An alternative that extends an earlier one is never the one taken. */
  lemma ShadowedAlternative(t: string, a: string, b: string)
    requires |a| <= |b| && b[..|a|] == a
    ensures ChoiceAt(t, [[a], [b]]) == ChoiceAt(t, [[a]])
  {
    assert [[a], [b]][1..] == [[b]];
    if StartsWith(t, b) {
      assert t[..|a|] == b[..|a|];
    }
  }

  /**
   * `(?:user|username)`: `username` can only match where `user` already
   * does, so the `whoami` rule fires exactly as the rule with `user` alone.
   */
  lemma UserCoversUsername(s: string)
    ensures WellFormed(Keywords([ShowVerbs, [["user"]]], "whoami"))
    ensures Rules[5] == WhoamiRule
    ensures Fire(WhoamiRule, s) == Fire(Keywords([ShowVerbs, [["user"]]], "whoami"), s)
  {
    var long, short := [ShowVerbs, [["user"], ["username"]]], [ShowVerbs, [["user"]]];
    forall t
      ensures KeywordsAt(t, long) == KeywordsAt(t, short)
    {
      match ChoiceAt(t, ShowVerbs)
      case None =>
      case Some(a) =>
        match Spaces(a)
        case None =>
        case Some(b) =>
          ShadowedAlternative(b, "user", "username");
          assert long[1..] == [[["user"], ["username"]]] && short[1..] == [[["user"]]];
    }
  }

  /**
   * First match wins, in table order; when nothing fires the input comes back
   * neither lower-cased nor stripped.
   */
  lemma TranslateFirstMatch(command: string, k: nat)
    requires k < |Rules|
    ensures (forall i :: 0 <= i < |Rules| ==> Fire(Rules[i], Normalize(command)).None?) ==> Translate(command) == command
    ensures Fire(Rules[k], Normalize(command)).Some? && (forall j :: 0 <= j < k ==> Fire(Rules[j], Normalize(command)).None?)
            ==> Translate(command) == Fire(Rules[k], Normalize(command)).value
  {
  }

  /** The rule at `k` decides once every rule before it is silent. */
  lemma TranslateAfterSilence(command: string, k: nat)
    requires k < |Rules|
    requires NoneFires(Rules, rule => Fire(rule, Normalize(command)), k)
    requires Fire(Rules[k], Normalize(command)).Some?
    ensures Translate(command) == Fire(Rules[k], Normalize(command)).value
  {
    CascadeAt(Rules, rule => Fire(rule, Normalize(command)), k);
  }

  /** The table, rule by rule. */
  lemma RulesInOrder()
    ensures |Rules| == 11
    ensures Rules[0] == FolderRule && Rules[1] == ListRule && Rules[2] == PwdRule && Rules[3] == UnameRule
    ensures Rules[4] == DateRule && Rules[5] == WhoamiRule && Rules[6] == PsRule && Rules[7] == DfRule
    ensures Rules[8] == TouchRule && Rules[9] == CatRule && Rules[10] == RmRule
  {
  }

  /** Every rule needs whitespace after its verb. */
  lemma FireNeedsSpace(rule: Rule, s: string)
    requires !HasSpace(s)
    ensures Fire(rule, s).None?
  {
    match rule
    case MakeDir(verbs, nouns) => SearchNeedsSpace(s, t => MakeDirAt(t, verbs, nouns));
    case ListDir(verbs, nouns) => SearchNeedsSpace(s, t => ListAt(t, verbs, nouns));
    case Keywords(phrase, _) =>
      if |phrase| >= 2 {
        SearchNeedsSpace(s, t => KeywordsAt(t, phrase));
      }
    case VerbFile(verbs, _) => SearchNeedsSpace(s, t => VerbSpaceAt(t, verbs));
  }

  /**
   * A command without whitespace (`ls`, `clear`, `history`, `CLEAR`) matches no
   * rule and passes through exactly as given.
   */
  lemma SingleWordPassesThrough(command: string)
    requires !HasSpace(command)
    ensures Translate(command) == command
  {
    LowerKeepsNoSpace(command);
    StripNoSpace(Lower(command));
    var s := Normalize(command);
    forall k | 0 <= k < |Rules|
      ensures Fire(Rules[k], s).None?
    {
      FireNeedsSpace(Rules[k], s);
    }
  }

  /** No character of the normalized text is an upper-case letter. */
  lemma NormalizeHasNoUpper(command: string, c: char)
    requires c in Normalize(command)
    ensures !IsUpper(c)
  {
    var s := Lower(command);
    var i, j :| 0 <= i <= j <= |s| && Strip(s) == s[i..j]
                && (forall k :: 0 <= k < i ==> IsSpace(s[k]))
                && (forall k :: j <= k < |s| ==> IsSpace(s[k]));
    var k :| i <= k < j && s[k] == c;
  }

  /**
   * Where the folder rule fires it captures from its leftmost match: the
   * name `MakeDirAtSpec` describes at that position.
   */
  lemma MakeDirName(s: string, verbs: Choice, nouns: Choice) returns (i: nat, name: string)
    requires Fire(MakeDir(verbs, nouns), s).Some?
    ensures i <= |s| && MakeDirAt(s[i..], verbs, nouns) == Some(name)
    ensures forall j :: 0 <= j < i ==> MakeDirAt(s[j..], verbs, nouns).None?
    ensures Fire(MakeDir(verbs, nouns), s) == Some("mkdir " + name) && |name| > 0
    ensures forall k :: 0 <= k < |name| ==> IsWordChar(name[k]) && name[k] in s
  {
    var m := t => MakeDirAt(t, verbs, nouns);
    assert Search(s, m).Some?;
    i := SearchFound(s, m);
    name := m(s[i..]).value;
    CharsOfSuffix(s, i, name);
  }

  /**
   * When the folder rule fires, the command is `mkdir ` and a non-empty name
   * made of word characters, taken from the lower-cased input and so never
   * containing an upper-case letter.
   */
  lemma MakeDirNameIsLowerCase(command: string)
    requires Fire(Rules[0], Normalize(command)).Some?
    ensures |Translate(command)| > 6 && Translate(command)[..6] == "mkdir "
    ensures forall k :: 6 <= k < |Translate(command)| ==>
              IsWordChar(Translate(command)[k]) && !IsUpper(Translate(command)[k])
  {
    var s := Normalize(command);
    TranslateFirstMatch(command, 0);
    assert Rules[0] == FolderRule;
    var i, name := MakeDirName(s, CreateVerbs, FolderNouns);
    var r := Translate(command);
    assert r == "mkdir " + name;
    forall k | 6 <= k < |r|
      ensures IsWordChar(r[k]) && !IsUpper(r[k])
    {
      assert r[k] == name[k - 6];
      NormalizeHasNoUpper(command, r[k]);
    }
  }

  /**
   * The file rules: the lazy group captures nothing, so a file rule yields
   * its bare command exactly when some verb is followed by whitespace
   * anywhere in the text.
   */
  lemma VerbFileFires(s: string, verbs: Choice, command: string)
    requires DistinctVerbs(verbs)
    ensures Fire(VerbFile(verbs, command), s)
            == if exists i, k :: 0 <= i <= |s| && 0 <= k < |verbs| && WordThenSpace(s[i..], verbs[k][0])
               then Some(command) else None
  {
  }

  /**
   * The keyword rules: a rule yields its command exactly when its phrase is
   * spelled somewhere in the text, as `re.search` looks for it.
   */
  lemma KeywordFires(s: string, phrase: seq<Choice>, command: string)
    requires |phrase| >= 2 && AllDistinct(phrase)
    ensures Fire(Keywords(phrase, command), s)
            == if exists i :: 0 <= i <= |s| && ChoicesSpelled(s[i..], phrase) then Some(command) else None
  {
  }

  /** The verbs one of which starts every match of `rule`. */
  function LeadVerbs(rule: Rule): Choice {
    match rule
    case MakeDir(verbs, _) => verbs
    case ListDir(verbs, _) => verbs
    case Keywords(phrase, _) => if |phrase| > 0 then phrase[0] else []
    case VerbFile(verbs, _) => verbs
  }

  /** The anchored pattern of `rule` matches at `t`. */
  predicate MatchesAt(rule: Rule, t: string) {
    match rule
    case MakeDir(verbs, nouns) => MakeDirAt(t, verbs, nouns).Some?
    case ListDir(verbs, nouns) => ListAt(t, verbs, nouns).Some?
    case Keywords(phrase, _) => |phrase| >= 2 && KeywordsAt(t, phrase).Some?
    case VerbFile(verbs, _) => VerbSpaceAt(t, verbs).Some?
  }

  /** A single-word alternative followed by `\s` means a verb followed by whitespace. */
  lemma ChoiceThenSpace(t: string, c: Choice)
    requires SingleWords(c)
    requires ChoiceAt(t, c).Some? && Spaces(ChoiceAt(t, c).value).Some?
    ensures exists k :: 0 <= k < |c| && WordThenSpace(t, c[k][0])
  {
    var k :| 0 <= k < |c| && PhraseAt(t, c[k]) == ChoiceAt(t, c);
    var w := c[k][0];
    assert PhraseAt(t, c[k]) == Some(t[|w|..]);
    assert WordThenSpace(t, w);
  }

  /** A matcher of `rule` succeeds at `t` only on a lead verb followed by whitespace. */
  lemma MatchNeedsLeadVerb(rule: Rule, t: string)
    requires SingleWords(LeadVerbs(rule))
    ensures MatchesAt(rule, t) ==> exists k :: 0 <= k < |LeadVerbs(rule)| && WordThenSpace(t, LeadVerbs(rule)[k][0])
  {
    if MatchesAt(rule, t) {
      ChoiceThenSpace(t, LeadVerbs(rule));
    }
  }

  /** Where the search of a firing rule matched. */
  lemma MatchPosition(rule: Rule, s: string) returns (i: nat)
    requires Fire(rule, s).Some?
    ensures i <= |s| && MatchesAt(rule, s[i..])
  {
    match rule
    case MakeDir(verbs, nouns) =>
      i :| i <= |s| && MakeDirAt(s[i..], verbs, nouns).Some?;
    case ListDir(verbs, nouns) =>
      i :| i <= |s| && ListAt(s[i..], verbs, nouns).Some?;
    case Keywords(phrase, _) =>
      i :| i <= |s| && KeywordsAt(s[i..], phrase).Some?;
    case VerbFile(verbs, _) =>
      i :| i <= |s| && VerbSpaceAt(s[i..], verbs).Some?;
  }

  /** A rule whose pattern matches at no position stays silent. */
  lemma Silent(rule: Rule, s: string)
    requires forall i :: 0 <= i <= |s| ==> !MatchesAt(rule, s[i..])
    ensures Fire(rule, s).None?
  {
    if Fire(rule, s).Some? {
      var i := MatchPosition(rule, s);
    }
  }

  /** A rule fires only where one of its lead verbs stands followed by whitespace. */
  lemma FireNeedsLeadVerb(rule: Rule, s: string)
    requires SingleWords(LeadVerbs(rule))
    ensures Fire(rule, s).Some? ==>
              exists i, k :: 0 <= i <= |s| && 0 <= k < |LeadVerbs(rule)| && WordThenSpace(s[i..], LeadVerbs(rule)[k][0])
  {
    if Fire(rule, s).Some? {
      var i := MatchPosition(rule, s);
      MatchNeedsLeadVerb(rule, s[i..]);
      var k :| 0 <= k < |LeadVerbs(rule)| && WordThenSpace(s[i..], LeadVerbs(rule)[k][0]);
    }
  }
}

=== FILE: translator_examples.dfy ===
/**
 * Worked translations. They pin down the precedence of the rules and the
 * places where the regular expressions behave differently from what their
 * shape suggests. Each text is a few words joined by single spaces; the
 * lemmas at the top say where in such a text a rule's lead word can stand,
 * which decides the rules that stay silent.
 */
module TranslatorExamples {
  import opened Options
  import opened Text
  import opened Patterns
  import opened Translator

  /** A name `\w+` can capture in full from lower-cased text. */
  predicate IsLowerName(name: string) {
    && |name| > 0
    && forall k :: 0 <= k < |name| ==> IsWordChar(name[k]) && !IsUpper(name[k])
  }

  /** A path of one or more non-space characters, already lower-case. */
  predicate IsLowerPath(path: string) {
    && |path| > 0 && !HasSpace(path)
    && forall k :: 0 <= k < |path| ==> !IsUpper(path[k])
  }

  /** One-word alternatives whose words are non-empty and free of whitespace. */
  predicate PlainWords(vs: Choice) {
    forall m :: 0 <= m < |vs| ==> |vs[m]| == 1 && |vs[m][0]| > 0 && !HasSpace(vs[m][0])
  }

  lemma {:induction false} WordRunAll(name: string)
    requires forall k :: 0 <= k < |name| ==> IsWordChar(name[k])
    ensures WordRun(name) == name
  {
    if |name| > 0 {
      WordRunAll(name[1..]);
    }
  }

  lemma {:induction false} LineRunAll(path: string)
    requires !HasSpace(path)
    ensures LineRun(path) == path
  {
    if |path| > 0 {
      assert !IsSpace(path[0]);
      assert forall k :: 1 <= k < |path| ==> path[1..][k - 1] == path[k];
      LineRunAll(path[1..]);
    }
  }

  /** `p + rest` is normalized to itself when `p` is lower-case text starting with a letter. */
  lemma NormalFixed(p: string, rest: string)
    requires |p| > 0 && !IsSpace(p[0]) && Lower(p) == p
    requires |rest| > 0 && !IsSpace(rest[|rest| - 1])
    requires forall k :: 0 <= k < |rest| ==> !IsUpper(rest[k])
    ensures Normalize(p + rest) == p + rest
  {
    LowerConcat(p, rest);
    LowerNoUpper(rest);
    StripTrimmed(p + rest);
  }

  // Where a word followed by whitespace can stand

  /**
   * In `a + " " + r`, a word followed by whitespace ends either exactly where
   * the first word `a` ends, or somewhere in `r`.
   */
  lemma WordEndsAtSpace(a: string, r: string, v: string, i: nat)
    requires !HasSpace(a) && |v| > 0 && !HasSpace(v)
    requires i <= |a + " " + r| && WordThenSpace((a + " " + r)[i..], v)
    ensures (i + |v| == |a| && IsSuffix(v, a)) || (i > |a| && WordThenSpace(r[i - |a| - 1..], v))
  {
    var s := a + " " + r;
    var j := i + |v|;
    assert s[i..][|v|] == s[j];
    if i > |a| {
      assert s[i..] == r[i - |a| - 1..];
    } else {
      assert forall k :: 0 <= k < |v| ==> v[k] == s[i + k];
      assert forall k :: i <= k < j ==> !IsSpace(s[k]);
      assert forall k :: 0 <= k < |a| ==> !IsSpace(s[k]);
      assert IsSpace(s[j]) && s[|a|] == ' ';
      assert j == |a|;
      assert a[i..] == v;
    }
  }

  /** No word of `vs` stands followed by whitespace anywhere in `t`. */
  predicate Unled(t: string, vs: Choice) {
    forall i, m :: 0 <= i <= |t| && 0 <= m < |vs| && |vs[m]| > 0 ==> !WordThenSpace(t[i..], vs[m][0])
  }

  lemma UnledSpaceless(t: string, vs: Choice)
    requires !HasSpace(t)
    ensures Unled(t, vs)
  {
  }

  /** A first word that no word of `vs` ends keeps a text without them free of them. */
  lemma UnledCons(a: string, r: string, vs: Choice)
    requires !HasSpace(a) && PlainWords(vs) && Unled(r, vs)
    requires forall m :: 0 <= m < |vs| ==> !IsSuffix(vs[m][0], a)
    ensures Unled(a + " " + r, vs)
  {
    var s := a + " " + r;
    forall i, m | 0 <= i <= |s| && 0 <= m < |vs| && |vs[m]| > 0
      ensures !WordThenSpace(s[i..], vs[m][0])
    {
      if WordThenSpace(s[i..], vs[m][0]) {
        WordEndsAtSpace(a, r, vs[m][0], i);
      }
    }
  }

  /**
   * When the only word of `vs` that can end the first word is the whole
   * first word, a word of `vs` followed by whitespace stands at the start.
   */
  lemma LedAtStart(a: string, r: string, vs: Choice)
    requires !HasSpace(a) && PlainWords(vs) && Unled(r, vs)
    requires forall m :: 0 <= m < |vs| && IsSuffix(vs[m][0], a) ==> vs[m][0] == a
    ensures forall i, m :: 0 <= i <= |a + " " + r| && 0 <= m < |vs| && WordThenSpace((a + " " + r)[i..], vs[m][0])
                           ==> i == 0
  {
    var s := a + " " + r;
    forall i, m | 0 <= i <= |s| && 0 <= m < |vs| && WordThenSpace(s[i..], vs[m][0])
      ensures i == 0
    {
      WordEndsAtSpace(a, r, vs[m][0], i);
    }
  }

  /** At the start of `a + " " + r`, a word followed by whitespace is `a` itself. */
  lemma FirstWordIsVerb(a: string, r: string, w: string)
    requires !HasSpace(a) && |w| > 0 && !HasSpace(w) && WordThenSpace(a + " " + r, w)
    ensures w == a
  {
    assert (a + " " + r)[0..] == a + " " + r;
    WordEndsAtSpace(a, r, w, 0);
  }

  /** `a + " " + r` reads as `a`, whitespace, then `r`. */
  lemma Gap(a: string, r: string)
    requires |r| > 0 && !IsSpace(r[0])
    ensures WordThenSpace(a + " " + r, a) && After(a + " " + r, a) == r
  {
    AfterGap(a, " ", r);
  }

  // Rules that stay silent

  /** A rule none of whose lead words stands followed by whitespace never fires. */
  lemma SilentWithoutLead(rule: Rule, s: string)
    requires PlainWords(LeadVerbs(rule)) && Unled(s, LeadVerbs(rule))
    ensures Fire(rule, s).None?
  {
    FireNeedsLeadVerb(rule, s);
  }

  /** A rule whose lead words can stand only at the start fires only if it matches there. */
  lemma SilentUnlessAtStart(rule: Rule, s: string)
    requires PlainWords(LeadVerbs(rule))
    requires forall i, m :: 0 <= i <= |s| && 0 <= m < |LeadVerbs(rule)| && WordThenSpace(s[i..], LeadVerbs(rule)[m][0])
                           ==> i == 0
    requires !MatchesAt(rule, s)
    ensures Fire(rule, s).None?
  {
    assert s[0..] == s;
    if Fire(rule, s).Some? {
      var i := MatchPosition(rule, s);
      MatchNeedsLeadVerb(rule, s[i..]);
    }
  }

  /** The alternatives of the first group all fail to begin `t`, so the groups are not spelled. */
  lemma GroupMisses(t: string, cs: seq<Choice>)
    requires |cs| > 0
    requires forall j :: 0 <= j < |cs[0]| ==> |cs[0][j]| > 0 && !StartsWith(t, cs[0][j][0])
    ensures !ChoicesSpelled(t, cs)
  {
    if ChoicesSpelled(t, cs) {
      var j :| 0 <= j < |cs[0]| && Spelled(t, cs[0][j]);
      SpelledHead(t, cs[0][j]);
    }
  }

  /** One group is spelled where one of its alternatives is. */
  lemma GroupHits(t: string, g: Choice, j: nat)
    requires j < |g| && Spelled(t, g[j])
    ensures ChoicesSpelled(t, [g])
  {
    assert [g][0][j] == g[j];
  }

  /** The alternative of the first group that a spelling of several groups begins with. */
  lemma SpelledFirst(t: string, cs: seq<Choice>) returns (j: nat)
    requires |cs| >= 2 && ChoicesSpelled(t, cs)
    ensures j < |cs[0]| && Spelled(t, cs[0][j])
    ensures var rest := SpelledRest(t, cs[0][j]);
            |rest| > 0 && IsSpace(rest[0]) && ChoicesSpelled(rest[SpaceRun(rest)..], cs[1..])
  {
    j :| 0 <= j < |cs[0]| && Spelled(t, cs[0][j])
         && var rest := SpelledRest(t, cs[0][j]);
            |rest| > 0 && IsSpace(rest[0]) && ChoicesSpelled(rest[SpaceRun(rest)..], cs[1..]);
  }

  /** A one-word alternative followed by whitespace leaves what `After` finds. */
  lemma OneWordRest(t: string, w: string)
    requires WordThenSpace(t, w)
    ensures Spelled(t, [w])
    ensures var rest := SpelledRest(t, [w]);
            |rest| > 0 && IsSpace(rest[0]) && rest[SpaceRun(rest)..] == After(t, w)
  {
  }

  /** Only the first word can open a spelling of several groups at `a + " " + r`. */
  lemma SpelledAfterWordOnly(a: string, r: string, cs: seq<Choice>)
    requires |cs| >= 2 && PlainWords(cs[0])
    requires !HasSpace(a) && |r| > 0 && !IsSpace(r[0])
    requires ChoicesSpelled(a + " " + r, cs)
    ensures [a] in cs[0] && ChoicesSpelled(r, cs[1..])
  {
    var s := a + " " + r;
    var j := SpelledFirst(s, cs);
    var w := cs[0][j][0];
    assert cs[0][j] == [w];
    assert WordThenSpace(s, w);
    FirstWordIsVerb(a, r, w);
    Gap(a, r);
    OneWordRest(s, a);
  }

  /** The first word opens a spelling when it is in the first group and the rest follow. */
  lemma SpelledAfterWordIf(a: string, r: string, cs: seq<Choice>)
    requires |cs| >= 2
    requires |r| > 0 && !IsSpace(r[0])
    requires [a] in cs[0] && ChoicesSpelled(r, cs[1..])
    ensures ChoicesSpelled(a + " " + r, cs)
  {
    var s := a + " " + r;
    var j :| 0 <= j < |cs[0]| && cs[0][j] == [a];
    Gap(a, r);
    OneWordRest(s, a);
    assert Spelled(s, cs[0][j]);
  }

  /**
   * Groups of alternatives at `a + " " + r` whose first group is one-word:
   * spelled exactly when `a` is one of those words and the other groups are
   * spelled at `r`.
   */
  lemma SpelledAfterWord(a: string, r: string, cs: seq<Choice>)
    requires |cs| >= 2 && PlainWords(cs[0])
    requires !HasSpace(a) && |r| > 0 && !IsSpace(r[0])
    ensures ChoicesSpelled(a + " " + r, cs) <==> [a] in cs[0] && ChoicesSpelled(r, cs[1..])
  {
    if ChoicesSpelled(a + " " + r, cs) {
      SpelledAfterWordOnly(a, r, cs);
    }
    if [a] in cs[0] && ChoicesSpelled(r, cs[1..]) {
      SpelledAfterWordIf(a, r, cs);
    }
  }

  /** A keyword rule whose lead word stands only at the start, and whose other groups miss there. */
  lemma KeywordSilentAt(a: string, r: string, phrase: seq<Choice>, command: string)
    requires WellFormed(Keywords(phrase, command)) && PlainWords(phrase[0])
    requires !HasSpace(a) && |r| > 0 && !IsSpace(r[0])
    requires Unled(r, phrase[0])
    requires forall m :: 0 <= m < |phrase[0]| && IsSuffix(phrase[0][m][0], a) ==> phrase[0][m][0] == a
    requires !ChoicesSpelled(r, phrase[1..])
    ensures Fire(Keywords(phrase, command), a + " " + r).None?
  {
    var s := a + " " + r;
    LedAtStart(a, r, phrase[0]);
    SpelledAfterWord(a, r, phrase);
    SilentUnlessAtStart(Keywords(phrase, command), s);
  }

  /** A keyword rule fires at the start when its lead word is `a` and its other groups are spelled at `r`. */
  lemma KeywordFiresAt(a: string, r: string, phrase: seq<Choice>, command: string)
    requires WellFormed(Keywords(phrase, command)) && PlainWords(phrase[0])
    requires !HasSpace(a) && |r| > 0 && !IsSpace(r[0])
    requires [a] in phrase[0] && ChoicesSpelled(r, phrase[1..])
    ensures Fire(Keywords(phrase, command), a + " " + r) == Some(command)
  {
    SpelledAfterWordIf(a, r, phrase);
    KeywordHere(a + " " + r, phrase, command);
  }

  /** A keyword rule whose phrase stands at the start of the text fires. */
  lemma KeywordHere(s: string, phrase: seq<Choice>, command: string)
    requires |phrase| >= 2 && AllDistinct(phrase) && ChoicesSpelled(s, phrase)
    ensures Fire(Keywords(phrase, command), s) == Some(command)
  {
    assert KeywordsAt(s, phrase).Some?;
    SearchHere(s, t => KeywordsAt(t, phrase));
  }

  /** The listing pattern at `a + " " + r` needs the verb `a` and a noun at the start of `r`. */
  lemma ListAtOnly(a: string, r: string, verbs: Choice, nouns: Choice)
    requires DistinctVerbs(verbs) && DistinctVerbs(nouns) && PlainWords(verbs)
    requires !HasSpace(a) && |r| > 0 && !IsSpace(r[0])
    requires ListAt(a + " " + r, verbs, nouns).Some?
    ensures [a] in verbs && exists n :: 0 <= n < |nouns| && StartsWith(r, nouns[n][0])
  {
    var s := a + " " + r;
    var k, n := ListAtOpens(s, verbs, nouns);
    FirstWordIsVerb(a, r, verbs[k][0]);
    assert verbs[k] == [a];
    Gap(a, r);
  }

  /** The verb and noun a match of the listing pattern opens with. */
  lemma ListAtOpens(t: string, verbs: Choice, nouns: Choice) returns (k: nat, n: nat)
    requires DistinctVerbs(verbs) && DistinctVerbs(nouns) && ListAt(t, verbs, nouns).Some?
    ensures k < |verbs| && n < |nouns|
    ensures WordThenSpace(t, verbs[k][0]) && StartsWith(After(t, verbs[k][0]), nouns[n][0])
  {
    ListAtSpec(t, verbs, nouns);
    k, n :| 0 <= k < |verbs| && 0 <= n < |nouns|
           && WordThenSpace(t, verbs[k][0]) && StartsWith(After(t, verbs[k][0]), nouns[n][0]);
  }

  /** With the verb `a` and a noun at the start of `r`, the listing pattern reads the `of` part after the noun. */
  lemma ListAtIf(a: string, r: string, verbs: Choice, nouns: Choice, k: nat, n: nat)
    requires DistinctVerbs(verbs) && DistinctVerbs(nouns)
    requires |r| > 0 && !IsSpace(r[0])
    requires k < |verbs| && verbs[k] == [a] && n < |nouns| && StartsWith(r, nouns[n][0])
    ensures ListAt(a + " " + r, verbs, nouns) == Some(OfPath(r[|nouns[n][0]|..]))
  {
    var s := a + " " + r;
    Gap(a, r);
    ListAtVerb(s, verbs, nouns, k);
    WordChoiceSpec(r, nouns);
  }

  /** The listing rule at `a + " " + r` when its verbs stand only at the start: silent unless a noun opens `r`. */
  lemma ListSilentAt(a: string, r: string, verbs: Choice, nouns: Choice)
    requires DistinctVerbs(verbs) && DistinctVerbs(nouns) && PlainWords(verbs)
    requires !HasSpace(a) && |r| > 0 && !IsSpace(r[0]) && Unled(r, verbs)
    requires forall m :: 0 <= m < |verbs| && IsSuffix(verbs[m][0], a) ==> verbs[m][0] == a
    requires forall n :: 0 <= n < |nouns| ==> !StartsWith(r, nouns[n][0])
    ensures Fire(ListDir(verbs, nouns), a + " " + r).None?
  {
    var s := a + " " + r;
    LedAtStart(a, r, verbs);
    if ListAt(s, verbs, nouns).Some? {
      ListAtOnly(a, r, verbs, nouns);
    }
    SilentUnlessAtStart(ListDir(verbs, nouns), s);
  }

  // Texts that open with "show" or "display"

  /** What follows the lead word of an example: no verb of the earlier rules stands in it. */
  predicate Tail(r: string) {
    && |r| > 0 && !IsSpace(r[0])
    && Unled(r, CreateVerbs) && Unled(r, ListVerbs) && Unled(r, ShowVerbs)
  }

  lemma ShowVerbsPlain()
    ensures PlainWords(ShowVerbs) && DistinctVerbs(ShowVerbs)
    ensures ["show"] in ShowVerbs && ["display"] in ShowVerbs
  {
    assert ShowVerbs[0] == ["show"] && ShowVerbs[1] == ["display"];
  }

  lemma EarlierVerbsPlain()
    ensures PlainWords(CreateVerbs) && DistinctVerbs(CreateVerbs) && DistinctVerbs(FolderNouns)
    ensures PlainWords(ListVerbs) && DistinctVerbs(ListVerbs) && DistinctVerbs(ListNouns)
  {
    FolderGroupsPlain();
    ListGroupsPlain();
  }

  lemma FolderGroupsPlain()
    ensures PlainWords(CreateVerbs) && DistinctVerbs(CreateVerbs)
    ensures PlainWords(FolderNouns) && DistinctVerbs(FolderNouns)
  {
    CreateVerbsPlain();
    FolderNounsPlain();
  }

  lemma CreateVerbsPlain()
    ensures PlainWords(CreateVerbs) && DistinctVerbs(CreateVerbs)
  {
  }

  lemma FolderNounsPlain()
    ensures PlainWords(FolderNouns) && DistinctVerbs(FolderNouns)
  {
  }

  lemma ListGroupsPlain()
    ensures PlainWords(ListVerbs) && DistinctVerbs(ListVerbs) && DistinctVerbs(ListNouns)
  {
    VerbRuleWellFormed(1);
  }

  /** A single word is a tail. */
  lemma TailWord(w: string)
    requires |w| > 0 && !HasSpace(w)
    ensures Tail(w)
  {
    UnledSpaceless(w, CreateVerbs);
    UnledSpaceless(w, ListVerbs);
    UnledSpaceless(w, ShowVerbs);
  }

  /** Two words are a tail when no earlier verb ends the first. */
  lemma TailWords(b: string, c: string)
    requires |b| > 0 && !HasSpace(b) && |c| > 0 && !HasSpace(c)
    requires forall m :: 0 <= m < |CreateVerbs| ==> !IsSuffix(CreateVerbs[m][0], b)
    requires forall m :: 0 <= m < |ListVerbs| ==> !IsSuffix(ListVerbs[m][0], b)
    requires forall m :: 0 <= m < |ShowVerbs| ==> !IsSuffix(ShowVerbs[m][0], b)
    ensures Tail(b + " " + c)
  {
    EarlierVerbsPlain();
    ShowVerbsPlain();
    TailWord(c);
    UnledCons(b, c, CreateVerbs);
    UnledCons(b, c, ListVerbs);
    UnledCons(b, c, ShowVerbs);
  }

  /** A lead word of the show rules. */
  predicate ShowWord(a: string) {
    a == "show" || a == "display"
  }

  lemma ShowWordLeads(a: string)
    requires ShowWord(a)
    ensures !HasSpace(a)
    ensures forall m :: 0 <= m < |CreateVerbs| ==> !IsSuffix(CreateVerbs[m][0], a)
    ensures forall m :: 0 <= m < |ListVerbs| && IsSuffix(ListVerbs[m][0], a) ==> ListVerbs[m][0] == a
    ensures forall m :: 0 <= m < |ShowVerbs| && IsSuffix(ShowVerbs[m][0], a) ==> ShowVerbs[m][0] == a
  {
  }

  /** The folder and listing rules stay silent on `show <tail>` when no listing noun opens the tail. */
  lemma ShowHeadQuiet(a: string, r: string)
    requires ShowWord(a) && Tail(r)
    requires forall n :: 0 <= n < |ListNouns| ==> !StartsWith(r, ListNouns[n][0])
    ensures Fire(FolderRule, a + " " + r).None? && Fire(ListRule, a + " " + r).None?
  {
    EarlierVerbsPlain();
    ShowWordLeads(a);
    UnledCons(a, r, CreateVerbs);
    SilentWithoutLead(FolderRule, a + " " + r);
    ListSilentAt(a, r, ListVerbs, ListNouns);
  }

  /** A keyword rule led by `show|display`, applied to `show <tail>`, is silent when its other groups miss. */
  lemma ShowKeywordQuiet(a: string, r: string, phrase: seq<Choice>, command: string)
    requires ShowWord(a) && Tail(r)
    requires WellFormed(Keywords(phrase, command)) && phrase[0] == ShowVerbs
    requires !ChoicesSpelled(r, phrase[1..])
    ensures Fire(Keywords(phrase, command), a + " " + r).None?
  {
    ShowVerbsPlain();
    ShowWordLeads(a);
    KeywordSilentAt(a, r, phrase, command);
  }

  /** A keyword rule led by `show|display` fires on `show <tail>` when its other groups are spelled. */
  lemma ShowKeywordFires(a: string, r: string, phrase: seq<Choice>, command: string)
    requires ShowWord(a) && |r| > 0 && !IsSpace(r[0])
    requires WellFormed(Keywords(phrase, command)) && phrase[0] == ShowVerbs
    requires ChoicesSpelled(r, phrase[1..])
    ensures Fire(Keywords(phrase, command), a + " " + r) == Some(command)
  {
    ShowVerbsPlain();
    ShowWordLeads(a);
    KeywordFiresAt(a, r, phrase, command);
  }

  /** The `whoami` rule through its one-alternative form. */
  lemma WhoamiAt(a: string, r: string)
    requires ShowWord(a) && Tail(r)
    ensures StartsWith(r, "user") ==> Fire(WhoamiRule, a + " " + r) == Some("whoami")
    ensures !StartsWith(r, "user") ==> Fire(WhoamiRule, a + " " + r).None?
  {
    var short := [ShowVerbs, [["user"]]];
    UserCoversUsername(a + " " + r);
    assert short[1..] == [[["user"]]];
    if StartsWith(r, "user") {
      GroupHits(r, [["user"]], 0);
      ShowKeywordFires(a, r, short, "whoami");
    } else {
      GroupMisses(r, short[1..]);
      ShowKeywordQuiet(a, r, short, "whoami");
    }
  }

  // The keyword rules, one example each

  /** `show <tail>` where the first group after the lead word misses: the keyword rule stays silent. */
  lemma KeywordMisses(a: string, r: string, phrase: seq<Choice>, command: string)
    requires ShowWord(a) && Tail(r)
    requires WellFormed(Keywords(phrase, command)) && phrase[0] == ShowVerbs
    requires forall j :: 0 <= j < |phrase[1]| ==> !StartsWith(r, phrase[1][j][0])
    ensures Fire(Keywords(phrase, command), a + " " + r).None?
  {
    assert phrase[1..][0] == phrase[1];
    GroupMisses(r, phrase[1..]);
    ShowKeywordQuiet(a, r, phrase, command);
  }

  /** `show <tail>` where a one-word alternative of the last group opens the tail: the keyword rule fires. */
  lemma KeywordHits(a: string, r: string, phrase: seq<Choice>, command: string, j: nat)
    requires ShowWord(a) && |r| > 0 && !IsSpace(r[0])
    requires WellFormed(Keywords(phrase, command)) && phrase[0] == ShowVerbs && |phrase| == 2
    requires j < |phrase[1]| && Spelled(r, phrase[1][j])
    ensures Fire(Keywords(phrase, command), a + " " + r) == Some(command)
  {
    GroupHits(r, phrase[1], j);
    assert phrase[1..] == [phrase[1]];
    ShowKeywordFires(a, r, phrase, command);
  }

  /** `KeywordHits` for a rule given whole. */
  lemma RuleHits(a: string, r: string, rule: Rule, j: nat)
    requires ShowWord(a) && |r| > 0 && !IsSpace(r[0])
    requires rule.Keywords? && WellFormed(rule) && rule.phrase[0] == ShowVerbs && |rule.phrase| == 2
    requires j < |rule.phrase[1]| && Spelled(r, rule.phrase[1][j])
    ensures Fire(rule, a + " " + r) == Some(rule.command)
  {
    KeywordHits(a, r, rule.phrase, rule.command, j);
  }

  /** `show <tail>` is normalized to itself when the tail is lower-case and does not end in whitespace. */
  lemma ShowNormal(a: string, r: string)
    requires ShowWord(a)
    requires |r| > 0 && !IsSpace(r[|r| - 1]) && forall k :: 0 <= k < |r| ==> !IsUpper(r[k])
    ensures Normalize(a + " " + r) == a + " " + r
  {
    assert Lower(a + " ") == a + " ";
    NormalFixed(a + " ", r);
  }

  /** No alternative of `g` begins `w`, seen at the first character. */
  lemma HeadsMiss(w: string, g: Choice)
    requires |w| > 0
    requires forall j :: 0 <= j < |g| ==> |g[j]| > 0 && |g[j][0]| > 0 && g[j][0][0] != w[0]
    ensures forall j :: 0 <= j < |g| ==> !StartsWith(w, g[j][0])
  {
    forall j | 0 <= j < |g|
      ensures !StartsWith(w, g[j][0])
    {
      DiffersAt(w, g[j][0], 0);
    }
  }

  /** One of the rules led by the show verbs, on its own. */
  lemma ShowRuleShape(rule: Rule)
    requires rule in {PwdRule, UnameRule, DateRule, PsRule, DfRule}
    ensures WellFormed(rule) && rule.Keywords? && rule.phrase[0] == ShowVerbs
  {
    ShowRulesShape();
  }

  /** The keyword rules led by `show|display` are well formed and share that lead group. */
  lemma ShowRulesShape()
    ensures WellFormed(PwdRule) && WellFormed(UnameRule) && WellFormed(DateRule)
    ensures WellFormed(PsRule) && WellFormed(DfRule)
    ensures PwdRule.phrase[0] == ShowVerbs && UnameRule.phrase[0] == ShowVerbs && DateRule.phrase[0] == ShowVerbs
    ensures PsRule.phrase[0] == ShowVerbs && DfRule.phrase[0] == ShowVerbs
  {
    RulesInOrder();
    RulesWellFormed(2);
    RulesWellFormed(3);
    RulesWellFormed(4);
    RulesWellFormed(6);
    RulesWellFormed(7);
  }

  // "show current directory" becomes "pwd"

  lemma CurrentDirectoryTail()
    ensures Tail("current directory")
    ensures forall n :: 0 <= n < |ListNouns| ==> !StartsWith("current directory", ListNouns[n][0])
  {
    var r := "current directory";
    assert r == "current" + " " + "directory";
    TailWords("current", "directory");
    DiffersAt(r, "directory", 0);
    DiffersAt(r, "files", 0);
    DiffersAt(r, "contents", 1);
  }

  /** Two groups are spelled by two words joined by a space, each one an alternative of its group. */
  lemma TwoWordsSpelled(b: string, c: string, cs: seq<Choice>)
    requires |cs| == 2 && [b] in cs[0] && [c] in cs[1]
    requires |c| > 0 && !IsSpace(c[0])
    ensures ChoicesSpelled(b + " " + c, cs)
  {
    var j :| 0 <= j < |cs[1]| && cs[1][j] == [c];
    assert StartsWith(c, c);
    GroupHits(c, cs[1], j);
    assert cs[1..] == [cs[1]];
    SpelledAfterWordIf(b, c, cs);
  }

  lemma CurrentDirectorySpelled()
    ensures ChoicesSpelled("current directory", PwdRule.phrase[1..])
  {
    var cs := PwdRule.phrase[1..];
    assert cs[0][0] == ["current"] && cs[1][0] == ["directory"];
    assert "current directory" == "current" + " " + "directory";
    TwoWordsSpelled("current", "directory", cs);
  }

  lemma CurrentDirectoryQuiet(a: string)
    requires ShowWord(a)
    ensures Fire(FolderRule, a + " current directory").None? && Fire(ListRule, a + " current directory").None?
  {
    var r := "current directory";
    assert a + " current directory" == a + " " + r;
    CurrentDirectoryTail();
    ShowHeadQuiet(a, r);
  }

  lemma CurrentDirectoryFires(a: string)
    requires ShowWord(a)
    ensures Fire(PwdRule, a + " current directory") == Some("pwd")
  {
    var r := "current directory";
    assert a + " current directory" == a + " " + r;
    CurrentDirectorySpelled();
    ShowRuleShape(PwdRule);
    ShowKeywordFires(a, r, PwdRule.phrase, "pwd");
  }

  /** "show current directory" and "display current directory" become "pwd". */
  lemma CurrentDirectoryExample(verb: string)
    requires ShowWord(verb)
    ensures Translate(verb + " current directory") == "pwd"
  {
    var s := verb + " current directory";
    assert s == verb + " " + "current directory";
    ShowNormal(verb, "current directory");
    CurrentDirectoryQuiet(verb);
    CurrentDirectoryFires(verb);
    RulesInOrder();
    var f := rule => Fire(rule, s);
    assert NoneFires(Rules, f, 1);
    assert NoneFires(Rules, f, 2);
    TranslateAfterSilence(s, 2);
  }

  // "show system info" becomes "uname"

  lemma SystemInfoFacts()
    ensures Tail("system info")
    ensures forall n :: 0 <= n < |ListNouns| ==> !StartsWith("system info", ListNouns[n][0])
    ensures forall j :: 0 <= j < |PwdRule.phrase[1]| ==> !StartsWith("system info", PwdRule.phrase[1][j][0])
    ensures Spelled("system info", UnameRule.phrase[1][0])
  {
    var r := "system info";
    assert r == "system" + " " + "info";
    TailWords("system", "info");
    HeadsMiss(r, ListNouns);
    HeadsMiss(r, PwdRule.phrase[1]);
  }

  lemma SystemInfoRules(a: string)
    requires ShowWord(a)
    ensures Fire(FolderRule, a + " system info").None? && Fire(ListRule, a + " system info").None?
    ensures Fire(PwdRule, a + " system info").None?
    ensures Fire(UnameRule, a + " system info") == Some("uname")
  {
    var r := "system info";
    assert a + " system info" == a + " " + r;
    SystemInfoFacts();
    ShowRulesShape();
    ShowHeadQuiet(a, r);
    KeywordMisses(a, r, PwdRule.phrase, "pwd");
    KeywordHits(a, r, UnameRule.phrase, "uname", 0);
  }

  /** "show system info" and "display system info" become "uname". */
  lemma SystemInfoExample(verb: string)
    requires ShowWord(verb)
    ensures Translate(verb + " system info") == "uname"
  {
    var s := verb + " system info";
    assert s == verb + " " + "system info";
    ShowNormal(verb, "system info");
    SystemInfoRules(verb);
    RulesInOrder();
    var f := rule => Fire(rule, s);
    assert NoneFires(Rules, f, 1);
    assert NoneFires(Rules, f, 2);
    assert NoneFires(Rules, f, 3);
    TranslateAfterSilence(s, 3);
  }

  // "show time" becomes "date"

  lemma TimeFacts()
    ensures Tail("time")
    ensures forall n :: 0 <= n < |ListNouns| ==> !StartsWith("time", ListNouns[n][0])
    ensures forall j :: 0 <= j < |PwdRule.phrase[1]| ==> !StartsWith("time", PwdRule.phrase[1][j][0])
    ensures forall j :: 0 <= j < |UnameRule.phrase[1]| ==> !StartsWith("time", UnameRule.phrase[1][j][0])
    ensures Spelled("time", DateRule.phrase[1][1])
  {
    TailWord("time");
    HeadsMiss("time", ListNouns);
    HeadsMiss("time", PwdRule.phrase[1]);
    HeadsMiss("time", UnameRule.phrase[1]);
  }

  lemma TimeRules(a: string)
    requires ShowWord(a)
    ensures Fire(FolderRule, a + " time").None? && Fire(ListRule, a + " time").None?
    ensures Fire(PwdRule, a + " time").None? && Fire(UnameRule, a + " time").None?
    ensures Fire(DateRule, a + " time") == Some("date")
  {
    var r := "time";
    assert a + " time" == a + " " + r;
    TimeFacts();
    ShowRulesShape();
    ShowHeadQuiet(a, r);
    KeywordMisses(a, r, PwdRule.phrase, "pwd");
    KeywordMisses(a, r, UnameRule.phrase, "uname");
    KeywordHits(a, r, DateRule.phrase, "date", 1);
  }

  /** "show time" and "display time" become "date". */
  lemma TimeExample(verb: string)
    requires ShowWord(verb)
    ensures Translate(verb + " time") == "date"
  {
    var s := verb + " time";
    assert s == verb + " " + "time";
    ShowNormal(verb, "time");
    TimeRules(verb);
    RulesInOrder();
    var f := rule => Fire(rule, s);
    assert NoneFires(Rules, f, 1);
    assert NoneFires(Rules, f, 2);
    assert NoneFires(Rules, f, 3);
    assert NoneFires(Rules, f, 4);
    TranslateAfterSilence(s, 4);
  }

  // "show user" becomes "whoami"

  lemma UserFacts()
    ensures Tail("user")
    ensures forall n :: 0 <= n < |ListNouns| ==> !StartsWith("user", ListNouns[n][0])
    ensures forall j :: 0 <= j < |PwdRule.phrase[1]| ==> !StartsWith("user", PwdRule.phrase[1][j][0])
    ensures forall j :: 0 <= j < |UnameRule.phrase[1]| ==> !StartsWith("user", UnameRule.phrase[1][j][0])
    ensures forall j :: 0 <= j < |DateRule.phrase[1]| ==> !StartsWith("user", DateRule.phrase[1][j][0])
  {
    TailWord("user");
    HeadsMiss("user", ListNouns);
    HeadsMiss("user", PwdRule.phrase[1]);
    HeadsMiss("user", UnameRule.phrase[1]);
    HeadsMiss("user", DateRule.phrase[1]);
  }

  lemma UserQuiet(a: string)
    requires ShowWord(a)
    ensures Fire(FolderRule, a + " user").None? && Fire(ListRule, a + " user").None?
    ensures Fire(PwdRule, a + " user").None? && Fire(UnameRule, a + " user").None?
    ensures Fire(DateRule, a + " user").None?
  {
    var r := "user";
    assert a + " user" == a + " " + r;
    UserFacts();
    ShowRulesShape();
    ShowHeadQuiet(a, r);
    KeywordMisses(a, r, PwdRule.phrase, "pwd");
    KeywordMisses(a, r, UnameRule.phrase, "uname");
    KeywordMisses(a, r, DateRule.phrase, "date");
  }

  lemma UserFires(a: string)
    requires ShowWord(a)
    ensures Fire(WhoamiRule, a + " user") == Some("whoami")
  {
    var r := "user";
    assert a + " user" == a + " " + r;
    TailWord(r);
    assert StartsWith(r, "user");
    WhoamiAt(a, r);
  }

  /** "show user" and "display user" become "whoami". */
  lemma UserExample(verb: string)
    requires ShowWord(verb)
    ensures Translate(verb + " user") == "whoami"
  {
    var s := verb + " user";
    assert s == verb + " " + "user";
    ShowNormal(verb, "user");
    UserQuiet(verb);
    UserFires(verb);
    RulesInOrder();
    var f := rule => Fire(rule, s);
    assert NoneFires(Rules, f, 1);
    assert NoneFires(Rules, f, 2);
    assert NoneFires(Rules, f, 3);
    assert NoneFires(Rules, f, 4);
    assert NoneFires(Rules, f, 5);
    TranslateAfterSilence(s, 5);
  }

  // "show running tasks" becomes "ps"

  /** A two-word alternative is spelled by its words joined by a space. */
  lemma TwoWordPhrase(b: string, c: string)
    requires |c| > 0 && !IsSpace(c[0])
    ensures Spelled(b + " " + c, [b, c])
  {
    Gap(b, c);
    assert [b, c][1..] == [c];
  }

  lemma RunningTasksFacts()
    ensures Tail("running tasks")
    ensures forall n :: 0 <= n < |ListNouns| ==> !StartsWith("running tasks", ListNouns[n][0])
    ensures forall j :: 0 <= j < |PwdRule.phrase[1]| ==> !StartsWith("running tasks", PwdRule.phrase[1][j][0])
    ensures forall j :: 0 <= j < |UnameRule.phrase[1]| ==> !StartsWith("running tasks", UnameRule.phrase[1][j][0])
    ensures forall j :: 0 <= j < |DateRule.phrase[1]| ==> !StartsWith("running tasks", DateRule.phrase[1][j][0])
    ensures !StartsWith("running tasks", "user")
  {
    var r := "running tasks";
    assert r == "running" + " " + "tasks";
    TailWords("running", "tasks");
    HeadsMiss(r, ListNouns);
    HeadsMiss(r, PwdRule.phrase[1]);
    HeadsMiss(r, UnameRule.phrase[1]);
    HeadsMiss(r, DateRule.phrase[1]);
    DiffersAt(r, "user", 0);
  }

  lemma RunningTasksQuiet(a: string)
    requires ShowWord(a)
    ensures Fire(FolderRule, a + " running tasks").None? && Fire(ListRule, a + " running tasks").None?
    ensures Fire(PwdRule, a + " running tasks").None?
  {
    var r := "running tasks";
    assert a + " running tasks" == a + " " + r;
    RunningTasksFacts();
    ShowRulesShape();
    ShowHeadQuiet(a, r);
    KeywordMisses(a, r, PwdRule.phrase, "pwd");
  }

  lemma RunningTasksQuietLater(a: string)
    requires ShowWord(a)
    ensures Fire(UnameRule, a + " running tasks").None? && Fire(DateRule, a + " running tasks").None?
    ensures Fire(WhoamiRule, a + " running tasks").None?
  {
    var r := "running tasks";
    assert a + " running tasks" == a + " " + r;
    RunningTasksFacts();
    ShowRulesShape();
    KeywordMisses(a, r, UnameRule.phrase, "uname");
    KeywordMisses(a, r, DateRule.phrase, "date");
    WhoamiAt(a, r);
  }

  lemma RunningTasksSpelled()
    ensures Spelled("running tasks", PsRule.phrase[1][1])
  {
    assert "running tasks" == "running" + " " + "tasks";
    TwoWordPhrase("running", "tasks");
    assert PsRule.phrase[1][1] == ["running", "tasks"];
  }

  lemma RunningTasksFires(a: string)
    requires ShowWord(a)
    ensures Fire(PsRule, a + " running tasks") == Some("ps")
  {
    var r := "running tasks";
    assert a + " running tasks" == a + " " + r;
    RunningTasksSpelled();
    PsFires(a, r);
  }

  /** The `ps` rule fires on `show <r>` when `r` spells its two-word alternative. */
  lemma PsFires(a: string, r: string)
    requires ShowWord(a) && |r| > 0 && !IsSpace(r[0]) && Spelled(r, PsRule.phrase[1][1])
    ensures Fire(PsRule, a + " " + r) == Some("ps")
  {
    ShowRuleShape(PsRule);
    RuleHits(a, r, PsRule, 1);
  }

  /** "show running tasks" and "display running tasks" become "ps", through the two-word alternative. */
  lemma RunningTasksExample(verb: string)
    requires ShowWord(verb)
    ensures Translate(verb + " running tasks") == "ps"
  {
    var s := verb + " running tasks";
    assert s == verb + " " + "running tasks";
    ShowNormal(verb, "running tasks");
    RunningTasksQuiet(verb);
    RunningTasksQuietLater(verb);
    RunningTasksFires(verb);
    RulesInOrder();
    var f := rule => Fire(rule, s);
    assert NoneFires(Rules, f, 1);
    assert NoneFires(Rules, f, 2);
    assert NoneFires(Rules, f, 3);
    assert NoneFires(Rules, f, 4);
    assert NoneFires(Rules, f, 5);
    assert NoneFires(Rules, f, 6);
    TranslateAfterSilence(s, 6);
  }

  // "show disk space" becomes "df"

  lemma DiskSpaceFacts()
    ensures Tail("disk space")
    ensures forall n :: 0 <= n < |ListNouns| ==> !StartsWith("disk space", ListNouns[n][0])
    ensures forall j :: 0 <= j < |PwdRule.phrase[1]| ==> !StartsWith("disk space", PwdRule.phrase[1][j][0])
    ensures forall j :: 0 <= j < |UnameRule.phrase[1]| ==> !StartsWith("disk space", UnameRule.phrase[1][j][0])
    ensures forall j :: 0 <= j < |DateRule.phrase[1]| ==> !StartsWith("disk space", DateRule.phrase[1][j][0])
    ensures !StartsWith("disk space", "user")
    ensures forall j :: 0 <= j < |PsRule.phrase[1]| ==> !StartsWith("disk space", PsRule.phrase[1][j][0])
  {
    var r := "disk space";
    assert r == "disk" + " " + "space";
    TailWords("disk", "space");
    DiffersAt(r, "directory", 2);
    DiffersAt(r, "files", 0);
    DiffersAt(r, "contents", 0);
    HeadsMiss(r, PwdRule.phrase[1]);
    HeadsMiss(r, UnameRule.phrase[1]);
    DiffersAt(r, "date", 1);
    DiffersAt(r, "time", 0);
    DiffersAt(r, "user", 0);
    HeadsMiss(r, PsRule.phrase[1]);
  }

  lemma DiskSpaceQuiet(a: string)
    requires ShowWord(a)
    ensures Fire(FolderRule, a + " disk space").None? && Fire(ListRule, a + " disk space").None?
    ensures Fire(PwdRule, a + " disk space").None? && Fire(UnameRule, a + " disk space").None?
  {
    var r := "disk space";
    assert a + " disk space" == a + " " + r;
    DiskSpaceFacts();
    ShowRulesShape();
    ShowHeadQuiet(a, r);
    KeywordMisses(a, r, PwdRule.phrase, "pwd");
    KeywordMisses(a, r, UnameRule.phrase, "uname");
  }

  lemma DiskSpaceQuietLater(a: string)
    requires ShowWord(a)
    ensures Fire(DateRule, a + " disk space").None? && Fire(WhoamiRule, a + " disk space").None?
    ensures Fire(PsRule, a + " disk space").None?
  {
    var r := "disk space";
    assert a + " disk space" == a + " " + r;
    DiskSpaceFacts();
    ShowRulesShape();
    KeywordMisses(a, r, DateRule.phrase, "date");
    WhoamiAt(a, r);
    KeywordMisses(a, r, PsRule.phrase, "ps");
  }

  lemma DiskSpaceFires(a: string)
    requires ShowWord(a)
    ensures Fire(DfRule, a + " disk space") == Some("df")
  {
    var r := "disk space";
    assert a + " disk space" == a + " " + r;
    assert Spelled(r, DfRule.phrase[1][0]);
    ShowRuleShape(DfRule);
    RuleHits(a, r, DfRule, 0);
  }

  /** "show disk space" and "display disk space" become "df". */
  lemma DiskSpaceExample(verb: string)
    requires ShowWord(verb)
    ensures Translate(verb + " disk space") == "df"
  {
    var s := verb + " disk space";
    assert s == verb + " " + "disk space";
    ShowNormal(verb, "disk space");
    DiskSpaceQuiet(verb);
    DiskSpaceQuietLater(verb);
    DiskSpaceFires(verb);
    RulesInOrder();
    var f := rule => Fire(rule, s);
    assert NoneFires(Rules, f, 1);
    assert NoneFires(Rules, f, 2);
    assert NoneFires(Rules, f, 3);
    assert NoneFires(Rules, f, 4);
    assert NoneFires(Rules, f, 5);
    assert NoneFires(Rules, f, 6);
    assert NoneFires(Rules, f, 7);
    TranslateAfterSilence(s, 7);
  }

  // "create a new folder <name>" becomes "mkdir <name>"

  /** The folder pattern on `verb a new noun name`, for any verb and noun of its groups. */
  lemma FolderAtStart(verbs: Choice, nouns: Choice, k: nat, n: nat, name: string)
    requires DistinctVerbs(verbs) && DistinctVerbs(nouns) && PlainWords(nouns)
    requires k < |verbs| && n < |nouns| && IsLowerName(name)
    ensures MakeDirAt(verbs[k][0] + " " + ("a" + " " + ("new" + " " + (nouns[n][0] + " " + name))), verbs, nouns)
            == Some(name)
  {
    var v, noun := verbs[k][0], nouns[n][0];
    var c := noun + " " + name;
    var b := "new" + " " + c;
    var a := "a" + " " + b;
    var t := v + " " + a;
    assert !IsSpace(noun[0]) && c[0] == noun[0];
    Gap(v, a);
    Gap("a", b);
    Gap("new", c);
    Gap(noun, name);
    assert NounPlace(t, v) == c;
    WordRunAll(name);
    MakeDirAtSpec(t, verbs, nouns);
  }

  /** A folder command in lower case is its own normal form. */
  lemma FolderNormal(verb: string, noun: string, name: string)
    requires [verb] in CreateVerbs && [noun] in FolderNouns && IsLowerName(name)
    ensures Normalize(verb + " a new " + noun + " " + name) == verb + " a new " + noun + " " + name
  {
    var rest := " a new " + noun + " " + name;
    assert |verb| > 0 && !IsSpace(verb[0]) && forall k :: 0 <= k < |verb| ==> !IsUpper(verb[k]);
    LowerNoUpper(verb);
    assert forall k :: 0 <= k < |noun| ==> !IsUpper(noun[k]);
    assert forall k :: 0 <= k < |rest| ==> !IsUpper(rest[k]);
    assert verb + rest == verb + " a new " + noun + " " + name;
    NormalFixed(verb, rest);
  }

  /**
   * "create a new folder notes", "build a new directory x1" and the rest
   * become `mkdir` of the name: the first rule decides at once.
   */
  lemma FolderExample(verb: string, noun: string, name: string)
    requires [verb] in CreateVerbs && [noun] in FolderNouns && IsLowerName(name)
    ensures Translate(verb + " a new " + noun + " " + name) == "mkdir " + name
  {
    var s := verb + " a new " + noun + " " + name;
    FolderNormal(verb, noun, name);
    FolderFires(verb, noun, name);
    RulesInOrder();
    TranslateAfterSilence(s, 0);
  }

  lemma FolderFires(verb: string, noun: string, name: string)
    requires [verb] in CreateVerbs && [noun] in FolderNouns && IsLowerName(name)
    ensures Fire(FolderRule, verb + " a new " + noun + " " + name) == Some("mkdir " + name)
  {
    var s := verb + " a new " + noun + " " + name;
    FolderGroupsPlain();
    var k :| 0 <= k < |CreateVerbs| && CreateVerbs[k] == [verb];
    var n :| 0 <= n < |FolderNouns| && FolderNouns[n] == [noun];
    assert s == verb + " " + ("a" + " " + ("new" + " " + (noun + " " + name)));
    FolderAtStart(CreateVerbs, FolderNouns, k, n, name);
    SearchHere(s, t => MakeDirAt(t, CreateVerbs, FolderNouns));
  }

  // "list files of <path>" becomes "ls <path>"

  /** `\s+` before a word consumes a single space. */
  lemma SpaceThenWord(u: string)
    requires |u| > 0 && !IsSpace(u[0])
    ensures SpaceRun(" " + u) == 1 && Spaces(" " + u) == Some(u)
  {
    assert (" " + u)[1..] == u;
    assert SpaceRun(u) == 0;
  }

  /** With one space before a path, `\s+(.+)` takes the whole path. */
  lemma BackOffOne(path: string)
    requires |path| > 0 && !HasSpace(path)
    ensures BackOff(" " + path, 1) == Some(path)
  {
    var v := " " + path;
    assert !IsSpace(path[0]) && v[1] == path[0] && v[1..] == path;
    SpaceThenWord(path);
    LineRunAll(path);
  }

  /** `\s+of\s+(.+)` after the noun takes a whole one-word path. */
  lemma OfPathTaken(path: string)
    requires |path| > 0 && !HasSpace(path)
    ensures OfPath(" " + ("of" + " " + path)) == Some(path)
  {
    var u := "of" + " " + path;
    SpaceThenWord(u);
    assert StartsWith(u, "of") && u[2..] == " " + path;
    assert !IsSpace(path[0]);
    SpaceThenWord(path);
    BackOffOne(path);
  }

  /** What follows `files` in "list files of <path>" names no earlier verb. */
  lemma ListFilesUnled(path: string)
    requires IsLowerPath(path)
    ensures Unled("list" + " " + ("files" + " " + ("of" + " " + path)), CreateVerbs)
  {
    FolderGroupsPlain();
    UnledSpaceless(path, CreateVerbs);
    UnledCons("of", path, CreateVerbs);
    UnledCons("files", "of" + " " + path, CreateVerbs);
    UnledCons("list", "files" + " " + ("of" + " " + path), CreateVerbs);
  }

  lemma ListFilesAt(path: string)
    requires IsLowerPath(path)
    ensures ListAt("list" + " " + ("files" + " " + ("of" + " " + path)), ListVerbs, ListNouns) == Some(Some(path))
  {
    var r := "files" + " " + ("of" + " " + path);
    ListGroupsPlain();
    assert ListVerbs[0] == ["list"] && ListNouns[1] == ["files"];
    assert StartsWith(r, "files") && r[5..] == " " + ("of" + " " + path);
    ListAtIf("list", r, ListVerbs, ListNouns, 0, 1);
    OfPathTaken(path);
  }

  lemma ListFilesFires(path: string)
    requires IsLowerPath(path)
    ensures Fire(ListRule, "list" + " " + ("files" + " " + ("of" + " " + path))) == Some("ls " + path)
  {
    var s := "list" + " " + ("files" + " " + ("of" + " " + path));
    ListFilesAt(path);
    SearchHere(s, t => ListAt(t, ListVerbs, ListNouns));
  }

  /** "list files of <path>" becomes "ls <path>", for a path without whitespace. */
  lemma ListFilesExample(path: string)
    requires IsLowerPath(path)
    ensures Translate("list files of " + path) == "ls " + path
  {
    var s := "list files of " + path;
    assert s == "list" + " " + ("files" + " " + ("of" + " " + path));
    NormalFixed("list files of ", path);
    ListFilesUnled(path);
    FolderGroupsPlain();
    SilentWithoutLead(FolderRule, s);
    ListFilesFires(path);
    RulesInOrder();
    var f := rule => Fire(rule, s);
    assert NoneFires(Rules, f, 1);
    TranslateAfterSilence(s, 1);
  }

  // "show directory contents of <path>" becomes a bare "ls"

  /** After the noun, `\s+of` finds another word, so the optional part is absent. */
  lemma ContentsNotOf(rest: string)
    ensures OfPath(" " + ("contents" + " " + rest)) == None
  {
    var t := " " + ("contents" + " " + rest);
    assert t[1..] == "contents" + " " + rest;
    assert SpaceRun(t[1..]) == 0;
    assert Spaces(t) == Some(t[1..]);
    assert !StartsWith(t[1..], "of");
  }

  lemma DirectoryContentsUnled(path: string)
    requires IsLowerPath(path)
    ensures Unled("show" + " " + ("directory" + " " + ("contents" + " " + ("of" + " " + path))), CreateVerbs)
  {
    FolderGroupsPlain();
    UnledSpaceless(path, CreateVerbs);
    UnledCons("of", path, CreateVerbs);
    UnledCons("contents", "of" + " " + path, CreateVerbs);
    UnledCons("directory", "contents" + " " + ("of" + " " + path), CreateVerbs);
    UnledCons("show", "directory" + " " + ("contents" + " " + ("of" + " " + path)), CreateVerbs);
  }

  lemma DirectoryContentsAt(path: string)
    ensures ListAt("show" + " " + ("directory" + " " + ("contents" + " " + ("of" + " " + path))), ListVerbs, ListNouns)
            == Some(None)
  {
    var r := "directory" + " " + ("contents" + " " + ("of" + " " + path));
    ListGroupsPlain();
    assert ListVerbs[1] == ["show"] && ListNouns[0] == ["directory"];
    assert StartsWith(r, "directory") && r[9..] == " " + ("contents" + " " + ("of" + " " + path));
    ListAtIf("show", r, ListVerbs, ListNouns, 1, 0);
    ContentsNotOf("of" + " " + path);
  }

  lemma DirectoryContentsFires(path: string)
    ensures Fire(ListRule, "show" + " " + ("directory" + " " + ("contents" + " " + ("of" + " " + path)))) == Some("ls")
  {
    var s := "show" + " " + ("directory" + " " + ("contents" + " " + ("of" + " " + path)));
    DirectoryContentsAt(path);
    SearchHere(s, t => ListAt(t, ListVerbs, ListNouns));
  }

  lemma DirectoryContentsNormal(path: string)
    requires IsLowerPath(path)
    ensures Normalize("show directory contents of " + path) == "show directory contents of " + path
  {
    NormalFixed("show directory contents of ", path);
  }

  lemma DirectoryContentsWords(path: string)
    ensures "show directory contents of " + path
            == "show" + " " + ("directory" + " " + ("contents" + " " + ("of" + " " + path)))
  {
  }

  /**
   * "show directory contents of <path>" becomes a bare "ls": the noun
   * `directory` is read first, and `\s+of` then finds `contents`.
   */
  lemma DirectoryContentsExample(path: string)
    requires IsLowerPath(path)
    ensures Translate("show directory contents of " + path) == "ls"
  {
    var s := "show directory contents of " + path;
    DirectoryContentsWords(path);
    DirectoryContentsNormal(path);
    DirectoryContentsUnled(path);
    FolderGroupsPlain();
    SilentWithoutLead(FolderRule, s);
    DirectoryContentsFires(path);
    RulesInOrder();
    var f := rule => Fire(rule, s);
    assert NoneFires(Rules, f, 1);
    TranslateAfterSilence(s, 1);
  }

  // "create <name>", "view <name>" and "show <name>" become "echo '' > " and "cat "

  /** A file rule whose verb opens `<verb> <name>` yields its bare command. */
  lemma FileRuleFires(a: string, name: string, verbs: Choice, command: string, k: nat)
    requires IsLowerPath(name) && DistinctVerbs(verbs) && k < |verbs| && verbs[k] == [a]
    ensures Fire(VerbFile(verbs, command), a + " " + name) == Some(command)
  {
    var s := a + " " + name;
    assert !IsSpace(name[0]);
    Gap(a, name);
    assert VerbSpaceAt(s, verbs).Some?;
    SearchHere(s, t => VerbSpaceAt(t, verbs));
  }

  /** A keyword rule led by `show|display` is silent on text where neither verb stands. */
  lemma UnshownQuiet(s: string, phrase: seq<Choice>, command: string)
    requires Unled(s, ShowVerbs) && |phrase| > 0 && phrase[0] == ShowVerbs
    ensures Fire(Keywords(phrase, command), s).None?
  {
    ShowVerbsPlain();
    SilentWithoutLead(Keywords(phrase, command), s);
  }

  lemma CatVerbsDistinct()
    ensures DistinctVerbs(CatVerbs) && CatVerbs[0] == ["show"] && CatVerbs[2] == ["view"]
  {
  }

  /** No list or show verb stands in "create <name>". */
  lemma CreateUnled(name: string)
    requires IsLowerPath(name)
    ensures Unled("create" + " " + name, ListVerbs) && Unled("create" + " " + name, ShowVerbs)
  {
    EarlierVerbsPlain();
    ShowVerbsPlain();
    UnledSpaceless(name, ListVerbs);
    UnledSpaceless(name, ShowVerbs);
    UnledCons("create", name, ListVerbs);
    UnledCons("create", name, ShowVerbs);
  }

  /** After `<a> ` a name without whitespace is where the folder noun would have to stand. */
  lemma NounPlaceSpaceless(a: string, name: string)
    requires |name| > 0 && !HasSpace(name)
    ensures WordThenSpace(a + " " + name, a) && NounPlace(a + " " + name, a) == name
  {
    assert !IsSpace(name[0]);
    Gap(a, name);
    assert !WordThenSpace(name, "a") && !WordThenSpace(name, "new");
  }

  /** `(?:folder|directory)\s+` cannot match text without whitespace. */
  lemma FolderNameSpaceless(c: string, t: string, nouns: Choice)
    requires IsSuffix(c, t) && DistinctVerbs(nouns) && !HasSpace(c)
    ensures FolderName(c, t, nouns).None?
  {
  }

  lemma CreateMatchFails(name: string)
    requires IsLowerPath(name)
    ensures MakeDirAt("create" + " " + name, CreateVerbs, FolderNouns).None?
  {
    var s := "create" + " " + name;
    FolderGroupsPlain();
    NounPlaceSpaceless("create", name);
    assert CreateVerbs[0] == ["create"];
    MakeDirAtVerb(s, CreateVerbs, FolderNouns, 0);
    FolderNameSpaceless(name, s, FolderNouns);
  }

  /** With no folder noun after it, `create` leaves the folder rule silent. */
  lemma CreateFolderSilent(name: string)
    requires IsLowerPath(name)
    ensures Fire(FolderRule, "create" + " " + name).None?
  {
    var s := "create" + " " + name;
    FolderGroupsPlain();
    UnledSpaceless(name, CreateVerbs);
    LedAtStart("create", name, CreateVerbs);
    CreateMatchFails(name);
    SilentUnlessAtStart(FolderRule, s);
  }

  lemma CreateQuiet(name: string)
    requires IsLowerPath(name)
    ensures Fire(FolderRule, "create" + " " + name).None? && Fire(ListRule, "create" + " " + name).None?
  {
    CreateFolderSilent(name);
    CreateUnled(name);
    ListGroupsPlain();
    SilentWithoutLead(ListRule, "create" + " " + name);
  }

  /**
   * "create notes.txt" becomes "echo '' > ": the verb `create` is shared with
   * the folder rule, which stays silent when no folder noun follows.
   */
  lemma CreateFileExample(name: string)
    requires IsLowerPath(name)
    ensures Translate("create " + name) == "echo '' > "
  {
    var s := "create " + name;
    assert s == "create" + " " + name;
    NormalFixed("create ", name);
    CreateQuiet(name);
    CreateUnled(name);
    RulesInOrder();
    UnshownQuiet(s, PwdRule.phrase, "pwd");
    UnshownQuiet(s, UnameRule.phrase, "uname");
    UnshownQuiet(s, DateRule.phrase, "date");
    UnshownQuiet(s, WhoamiRule.phrase, "whoami");
    UnshownQuiet(s, PsRule.phrase, "ps");
    UnshownQuiet(s, DfRule.phrase, "df");
    CreateVerbsPlain();
    FileRuleFires("create", name, CreateVerbs, "echo '' > ", 0);
    var f := rule => Fire(rule, s);
    assert NoneFires(Rules, f, 1);
    assert NoneFires(Rules, f, 2);
    assert NoneFires(Rules, f, 3);
    assert NoneFires(Rules, f, 4);
    assert NoneFires(Rules, f, 5);
    assert NoneFires(Rules, f, 6);
    assert NoneFires(Rules, f, 7);
    assert NoneFires(Rules, f, 8);
    TranslateAfterSilence(s, 8);
  }

  /** No verb of the rules before the `cat` rule stands in "view <name>". */
  lemma ViewUnled(name: string)
    requires IsLowerPath(name)
    ensures Unled("view" + " " + name, CreateVerbs) && Unled("view" + " " + name, ListVerbs)
    ensures Unled("view" + " " + name, ShowVerbs)
  {
    EarlierVerbsPlain();
    ShowVerbsPlain();
    UnledSpaceless(name, CreateVerbs);
    UnledSpaceless(name, ListVerbs);
    UnledSpaceless(name, ShowVerbs);
    UnledCons("view", name, CreateVerbs);
    UnledCons("view", name, ListVerbs);
    UnledCons("view", name, ShowVerbs);
  }

  lemma ViewQuiet(name: string)
    requires IsLowerPath(name)
    ensures Fire(FolderRule, "view" + " " + name).None? && Fire(ListRule, "view" + " " + name).None?
    ensures Fire(TouchRule, "view" + " " + name).None?
  {
    var s := "view" + " " + name;
    ViewUnled(name);
    EarlierVerbsPlain();
    SilentWithoutLead(FolderRule, s);
    SilentWithoutLead(ListRule, s);
    SilentWithoutLead(TouchRule, s);
  }

  /** "view notes.txt" becomes "cat ", the name dropped by the lazy group. */
  lemma ViewFileExample(name: string)
    requires IsLowerPath(name)
    ensures Translate("view " + name) == "cat "
  {
    var s := "view " + name;
    assert s == "view" + " " + name;
    NormalFixed("view ", name);
    ViewQuiet(name);
    ViewUnled(name);
    RulesInOrder();
    UnshownQuiet(s, PwdRule.phrase, "pwd");
    UnshownQuiet(s, UnameRule.phrase, "uname");
    UnshownQuiet(s, DateRule.phrase, "date");
    UnshownQuiet(s, WhoamiRule.phrase, "whoami");
    UnshownQuiet(s, PsRule.phrase, "ps");
    UnshownQuiet(s, DfRule.phrase, "df");
    CatVerbsDistinct();
    FileRuleFires("view", name, CatVerbs, "cat ", 2);
    var f := rule => Fire(rule, s);
    assert NoneFires(Rules, f, 1);
    assert NoneFires(Rules, f, 2);
    assert NoneFires(Rules, f, 3);
    assert NoneFires(Rules, f, 4);
    assert NoneFires(Rules, f, 5);
    assert NoneFires(Rules, f, 6);
    assert NoneFires(Rules, f, 7);
    assert NoneFires(Rules, f, 8);
    assert NoneFires(Rules, f, 9);
    TranslateAfterSilence(s, 9);
  }

  /**
   * The first letters of the listing nouns and of the keyword alternatives
   * after `show`: a name starting with none of them reaches the `cat` rule.
   */
  const KeywordHeads: string := "cdfioprstuw"

  lemma ShowFileFacts(name: string)
    requires IsLowerPath(name) && name[0] !in KeywordHeads
    ensures Tail(name) && !StartsWith(name, "user")
    ensures forall n :: 0 <= n < |ListNouns| ==> !StartsWith(name, ListNouns[n][0])
  {
    TailWord(name);
    HeadsMiss(name, ListNouns);
    DiffersAt(name, "user", 0);
  }

  lemma ShowFileQuiet(a: string, name: string)
    requires ShowWord(a) && IsLowerPath(name) && name[0] !in KeywordHeads
    ensures Fire(FolderRule, a + " " + name).None? && Fire(ListRule, a + " " + name).None?
    ensures Fire(PwdRule, a + " " + name).None? && Fire(UnameRule, a + " " + name).None?
    ensures Fire(DateRule, a + " " + name).None?
  {
    ShowFileFacts(name);
    ShowHeadQuiet(a, name);
    ShowRulesShape();
    HeadsMiss(name, PwdRule.phrase[1]);
    HeadsMiss(name, UnameRule.phrase[1]);
    HeadsMiss(name, DateRule.phrase[1]);
    KeywordMisses(a, name, PwdRule.phrase, "pwd");
    KeywordMisses(a, name, UnameRule.phrase, "uname");
    KeywordMisses(a, name, DateRule.phrase, "date");
  }

  lemma ShowFileQuietLater(a: string, name: string)
    requires ShowWord(a) && IsLowerPath(name) && name[0] !in KeywordHeads
    ensures Fire(WhoamiRule, a + " " + name).None? && Fire(PsRule, a + " " + name).None?
    ensures Fire(DfRule, a + " " + name).None? && Fire(TouchRule, a + " " + name).None?
  {
    ShowFileFacts(name);
    WhoamiAt(a, name);
    ShowRulesShape();
    HeadsMiss(name, PsRule.phrase[1]);
    HeadsMiss(name, DfRule.phrase[1]);
    KeywordMisses(a, name, PsRule.phrase, "ps");
    KeywordMisses(a, name, DfRule.phrase, "df");
    EarlierVerbsPlain();
    ShowWordLeads(a);
    UnledCons(a, name, CreateVerbs);
    SilentWithoutLead(TouchRule, a + " " + name);
  }

  /**
   * "show notes.txt" and "display notes.txt" become "cat ": the listing and
   * keyword rules, which share the verb, stay silent when no noun or keyword
   * begins the name.
   */
  lemma ShowFileExample(verb: string, name: string)
    requires ShowWord(verb) && IsLowerPath(name) && name[0] !in KeywordHeads
    ensures Translate(verb + " " + name) == "cat "
  {
    var s := verb + " " + name;
    assert !IsSpace(name[|name| - 1]);
    ShowNormal(verb, name);
    ShowFileQuiet(verb, name);
    ShowFileQuietLater(verb, name);
    CatVerbsDistinct();
    var k: nat := if verb == "show" then 0 else 1;
    assert CatVerbs[k] == [verb];
    FileRuleFires(verb, name, CatVerbs, "cat ", k);
    RulesInOrder();
    var f := rule => Fire(rule, s);
    assert NoneFires(Rules, f, 1);
    assert NoneFires(Rules, f, 2);
    assert NoneFires(Rules, f, 3);
    assert NoneFires(Rules, f, 4);
    assert NoneFires(Rules, f, 5);
    assert NoneFires(Rules, f, 6);
    assert NoneFires(Rules, f, 7);
    assert NoneFires(Rules, f, 8);
    assert NoneFires(Rules, f, 9);
    TranslateAfterSilence(s, 9);
  }

  // "delete <name>" becomes a bare "rm "

  lemma DeleteLeadsPlain()
    ensures PlainWords(CatVerbs) && PlainWords(RmVerbs) && DistinctVerbs(RmVerbs)
    ensures RmVerbs[0] == ["delete"]
  {
    CatVerbsPlain();
    RmVerbsPlain();
  }

  lemma CatVerbsPlain()
    ensures PlainWords(CatVerbs)
  {
  }

  lemma RmVerbsPlain()
    ensures PlainWords(RmVerbs) && DistinctVerbs(RmVerbs) && RmVerbs[0] == ["delete"]
  {
  }

  /** No verb of the earlier rules stands in "delete <name>". */
  lemma DeleteUnled(name: string)
    requires IsLowerPath(name)
    ensures Unled("delete" + " " + name, CreateVerbs) && Unled("delete" + " " + name, ListVerbs)
    ensures Unled("delete" + " " + name, ShowVerbs) && Unled("delete" + " " + name, CatVerbs)
  {
    EarlierVerbsPlain();
    ShowVerbsPlain();
    DeleteLeadsPlain();
    UnledSpaceless(name, CreateVerbs);
    UnledSpaceless(name, ListVerbs);
    UnledSpaceless(name, ShowVerbs);
    UnledSpaceless(name, CatVerbs);
    UnledCons("delete", name, CreateVerbs);
    UnledCons("delete", name, ListVerbs);
    UnledCons("delete", name, ShowVerbs);
    UnledCons("delete", name, CatVerbs);
  }

  lemma DeleteQuiet(name: string)
    requires IsLowerPath(name)
    ensures Fire(FolderRule, "delete" + " " + name).None? && Fire(ListRule, "delete" + " " + name).None?
    ensures Fire(TouchRule, "delete" + " " + name).None? && Fire(CatRule, "delete" + " " + name).None?
  {
    var s := "delete" + " " + name;
    DeleteUnled(name);
    EarlierVerbsPlain();
    DeleteLeadsPlain();
    SilentWithoutLead(FolderRule, s);
    SilentWithoutLead(ListRule, s);
    SilentWithoutLead(TouchRule, s);
    SilentWithoutLead(CatRule, s);
  }

  lemma DeleteShowQuiet(name: string, phrase: seq<Choice>, command: string)
    requires IsLowerPath(name) && |phrase| > 0 && phrase[0] == ShowVerbs
    ensures Fire(Keywords(phrase, command), "delete" + " " + name).None?
  {
    DeleteUnled(name);
    ShowVerbsPlain();
    SilentWithoutLead(Keywords(phrase, command), "delete" + " " + name);
  }

  lemma DeleteFires(name: string)
    requires IsLowerPath(name)
    ensures Fire(RmRule, "delete" + " " + name) == Some("rm ")
  {
    var s := "delete" + " " + name;
    DeleteLeadsPlain();
    assert !IsSpace(name[0]);
    Gap("delete", name);
    assert VerbSpaceAt(s, RmVerbs).Some?;
    SearchHere(s, t => VerbSpaceAt(t, RmVerbs));
  }

  /**
   * "delete notes.txt" becomes "rm " and not "rm notes.txt": the lazy group
   * of the file rules captures nothing.
   */
  lemma DeleteExample(name: string)
    requires IsLowerPath(name)
    ensures Translate("delete " + name) == "rm "
  {
    var s := "delete " + name;
    assert s == "delete" + " " + name;
    NormalFixed("delete ", name);
    DeleteQuiet(name);
    RulesInOrder();
    DeleteShowQuiet(name, PwdRule.phrase, "pwd");
    DeleteShowQuiet(name, UnameRule.phrase, "uname");
    DeleteShowQuiet(name, DateRule.phrase, "date");
    DeleteShowQuiet(name, WhoamiRule.phrase, "whoami");
    DeleteShowQuiet(name, PsRule.phrase, "ps");
    DeleteShowQuiet(name, DfRule.phrase, "df");
    DeleteFires(name);
    var f := rule => Fire(rule, s);
    assert NoneFires(Rules, f, 1);
    assert NoneFires(Rules, f, 2);
    assert NoneFires(Rules, f, 3);
    assert NoneFires(Rules, f, 4);
    assert NoneFires(Rules, f, 5);
    assert NoneFires(Rules, f, 6);
    assert NoneFires(Rules, f, 7);
    assert NoneFires(Rules, f, 8);
    assert NoneFires(Rules, f, 9);
    assert NoneFires(Rules, f, 10);
    TranslateAfterSilence(s, 10);
  }
}
